=== FILE: README.md ===
# JobNotify README parser and change detector, in Dafny

JobNotify watches a crowd-sourced Markdown table of internship postings. It has two parts:

- `watchReadme.js` fetches the document, digests it and compares the digest with the one kept
  in a hash file. Only when they differ does it run the parser. It then overwrites the hash
  file, whether the parser succeeded or not.
- `parseReadme.js` finds the table's header line and walks the rows below it. It turns each
  row with enough cells into a job record: company, role, location, apply link, company link,
  and remote and hybrid flags. A row whose company cell is the continuation arrow `↳` repeats
  the company and company link of the row before it.

The modules follow the program's structure:

- `Text` (text.dfy) holds the JavaScript string operations the parser uses: `trim`, `split`,
  `includes` and `toLowerCase`.
- `Rewrite` (rewrite.dfy) models global regular-expression replacement, `s.replace(/re/g, rep)`,
  for the five expressions of the parser. Each expression is given declaratively as the
  windows it accepts. A scanner is proved to find the shortest such window, which is the match
  JavaScript reports for these expressions. `ReplaceAll` replaces left to right.
- `HtmlCleanup` (clean_html.dfy) is `cleanHTML`: the four tag rewrites, whitespace squishing
  and trimming.
- `MarkdownLink` (markdown_link.dfy) is the `[text](url)` match on the company cell. The
  backtracking semantics of `\[(.*?)\]\((.*?)\)` are stated declaratively, and a scanner is
  proved to report that match.
- `ApplyLink` (apply_link.dfy) picks the apply link from the anchors of the apply cell. The
  HTML library is an input: a loaded fragment is its list of anchors.
- `Table` (table.dfy) is the walk over the table. It is written once over classified lines
  and is independent of how a row is parsed. Lemmas say which lines become records, in which
  order, and in which context each record is parsed.
- `Parser` (parser.dfy) covers the header search, line classification, company resolution
  with the carried company and link, and the record for one row. `ParseReadme` and
  `CollectRecords` are the program's own statements and loop, with `break`, and a short-row
  arm that moves to the next line as `continue` does,
  proved equal to the functional `Parse`.
- `Watcher` (watcher.dfy) is the change detector. It is a class whose one mutable field is
  the hash file, and `Run` is one run.

Behaviour of the code a reader may not expect:

- Without a header line, `findIndex` returns -1, so scanning starts at line 1 instead of
  producing no records (`Parser.TableStartAfterHeader`).
- The hash file is overwritten after the parser runs even when the parser failed, so a failed
  parse is not retried on the same content (`Watcher.StoredHashFollowsContent`).
- A fetch that returns a non-success HTTP status does not throw. Its body is digested like any
  other text. Only a thrown fetch or body read aborts the run (`Watcher.Outcome.FetchFailed`).
- The apply link is taken only from `<a>` elements with an `<img>` whose `alt` mentions
  "apply". A Markdown `[Apply](url)` apply cell holds no anchor, so it yields `""`.
- A row split into exactly five pieces is accepted: three cells, plus the empty piece before
  the first bar and the empty piece after the last. That last, empty piece becomes the apply
  cell, so such a row gets the apply link `""`.
- A `↳` row at the very top of the table inherits the initial empty company and the initial
  empty-string link, not `null` (`Parser.LeadingContinuation`).

Characters are treated as ASCII throughout:

- `\s` and `trim` whitespace is space, tab, line feed, carriage return, vertical tab and form
  feed.
- The characters `.` does not match are `\n` and `\r`.
- `toLowerCase` and the `i` flag map `A`..`Z` only.

## Model

| member | source | states |
|---|---|---|
| Text.Includes | parseReadme.js:55-56 | `includes` holds exactly when the word occurs somewhere in the string |
| Text.LowerString | parseReadme.js:54 | `toLowerCase`; its meaning for searching is stated by `Text.LowerContains` |
| Text.LowerContains | parseReadme.js:54-56 | a lower-case word occurs in the lower-cased string exactly when it occurs in the original in any letter case |
| Text.IgnoringCaseAt | parseReadme.js:9-10 | a case-insensitive occurrence agrees with the word at each position once both are lower-cased |
| Text.LowerOfNonLetter | parseReadme.js:9-10 | lower-casing gives a given non-letter exactly from that character itself |
| Text.Trim | parseReadme.js:28 | `trim` leaves no whitespace at either end |
| Text.TrimIsSlice | parseReadme.js:28 | `trim` removes only whitespace: the result is the slice of the input between leading and trailing whitespace runs |
| Text.TrimStart | parseReadme.js:13 | the leading whitespace run is dropped and nothing else |
| Text.TrimEnd | parseReadme.js:13 | the trailing whitespace run is dropped and nothing else |
| Text.TrimOfTrimmed | parseReadme.js:13 | `trim` leaves a string with no whitespace at either end as it is |
| Text.NoLineBreakCons | parseReadme.js:10-11 | prepending a character shifts where line terminators stand and changes nothing else |
| Text.Split | parseReadme.js:20 | `split` gives at least one piece |
| Text.SplitPiecesHaveNoSeparator | parseReadme.js:20 | no piece of a split holds the separator |
| Text.SplitJoinsBack | parseReadme.js:31 | joining the pieces with the separator gives the string back |
| Text.SplitJoin | parseReadme.js:31 | splitting a join of separator-free pieces gives the pieces back |
| Rewrite.FindOnLine | parseReadme.js:10-11 | the lazy `.*?` before a literal stops at the first occurrence on the same line, or finds none |
| Rewrite.SkipSpaces | parseReadme.js:8 | `\s*` consumes the whole whitespace run |
| Rewrite.BreakTagScan | parseReadme.js:8 | the line-break scanner measures the unique `<br>`/`</br>`/`<br/>`/`<BR />` tag at the front, if any |
| Rewrite.DetailsTagScan | parseReadme.js:9 | the details scanner measures the unique `<details>`/`</details>` tag at the front, in any case |
| Rewrite.SummaryOpenerOfPrefix | parseReadme.js:10 | a window opens with the same summary tag as the text it starts |
| Rewrite.SummarySpanFound | parseReadme.js:10 | the window the summary scanner measures is accepted by the expression |
| Rewrite.SummarySpanShortest | parseReadme.js:10 | every accepted summary window at the front is at least as long as the one measured |
| Rewrite.SummarySpanScan | parseReadme.js:10 | the summary scanner finds the shortest summary tag through the next `</summary>` on the line |
| Rewrite.AnyTagScan | parseReadme.js:11 | the tag scanner finds the shortest `<`…`>` on one line |
| Rewrite.MatchLen | parseReadme.js:8-11 | the measured match at the front of a text fits in the text |
| Rewrite.MatchLenCorrect | parseReadme.js:8-11 | for each expression, the match at the front is the shortest accepted window, and there is one whenever any window is accepted |
| Rewrite.ReplaceAll | parseReadme.js:8-11 | `s.replace(/re/g, rep)` scanning left to right (also the `**` removal of line 46); `Rewrite.ReplaceAllDrawsFrom`, `Rewrite.NothingToReplace`, `Rewrite.CopiedPrefix`, `Rewrite.CopiedUntilMatch`, `Rewrite.NoBreakTagLeft`, `Rewrite.NoTagLeftOnLine` and `Rewrite.NoBoldLeft` state what it does |
| Rewrite.ReplaceAllDrawsFrom | parseReadme.js:8-11 | every character of the result of a global replacement comes from the input or from the replacement text |
| Rewrite.NothingToReplace | parseReadme.js:8-11 | where the expression matches nowhere, replacing changes nothing |
| Rewrite.CopiedStep | parseReadme.js:8 | an output that does not open with the replacement's first character copied the input's first character |
| Rewrite.CopiedPrefix | parseReadme.js:8 | up to the first comma of the output, the output is the input's own prefix |
| Rewrite.CopiedUntilMatch | parseReadme.js:8-11 | up to the first position where the expression matches (for the line-break pass, the first inserted `, `), the output is the input's own prefix |
| Rewrite.BreakTagHasNoComma | parseReadme.js:8 | a line-break tag holds no comma |
| Rewrite.NoBreakTagAtFront | parseReadme.js:8 | no line-break tag starts the output of the line-break pass |
| Rewrite.NoBreakTagInSuffix | parseReadme.js:8 | a suffix free of line-break tags has none at any position inside it |
| Rewrite.NoBreakTagLeft | parseReadme.js:8 | after the line-break pass no line-break tag is left anywhere |
| Rewrite.TagPassKeepsGtAfterLineBreak | parseReadme.js:11 | the tag pass keeps every `>` behind a line terminator |
| Rewrite.UnmatchedOpen | parseReadme.js:11 | a `<` the tag pass keeps has no `>` later on its line |
| Rewrite.NoTagOnOneLineCons | parseReadme.js:11 | prepending a kept `<` with no `>` on its line keeps the output free of one-line tags |
| Rewrite.NoTagLeftOnLine | parseReadme.js:11 | after the tag pass no `<` is followed by a `>` on the same line |
| Rewrite.BoldRemovalKeepsOtherChars | parseReadme.js:46 | removing `**` removes asterisks only and keeps every other character in order |
| Rewrite.NoBoldLeft | parseReadme.js:46 | after removing `**` no `**` is left, not even a newly joined one |
| Rewrite.BoldSuffixRemoved | parseReadme.js:46 | removing `**` from a text without asterisks followed by `**` gives that text |
| Rewrite.BoldAroundRemoved | parseReadme.js:46 | removing `**` from `**t**`, with no asterisk in `t`, gives `t` |
| HtmlCleanup.InNonSpace | parseReadme.js:12 | a non-whitespace character is among the kept characters exactly when it is in the string |
| HtmlCleanup.Squish | parseReadme.js:12 | squishing leaves only single spaces as whitespace, never two in a row, keeps every other character in order, and starts with whitespace exactly when the input did |
| HtmlCleanup.SquishSpaceRun | parseReadme.js:12 | a whitespace run before a non-whitespace character or the end becomes one space |
| HtmlCleanup.SquishKeepsWordBreak | parseReadme.js:12 | a whitespace run of any length after a word leaves exactly one space, so no two words are joined |
| HtmlCleanup.SquishOfSingleSpaced | parseReadme.js:12 | a text whose whitespace is already single spaces is left unchanged |
| HtmlCleanup.SquishKeepsNoTag | parseReadme.js:12 | squishing creates no `<` before a `>` |
| HtmlCleanup.SuffixKeepsSingleSpaced | parseReadme.js:12-13 | dropping a prefix keeps whitespace single spaced |
| HtmlCleanup.PrefixKeepsSingleSpaced | parseReadme.js:12-13 | dropping a suffix keeps whitespace single spaced |
| HtmlCleanup.TrimKeepsSingleSpaced | parseReadme.js:13 | trimming keeps whitespace single spaced |
| HtmlCleanup.SliceKeepsNoTag | parseReadme.js:11-13 | a slice of a text with no `<` before a `>` has none either |
| HtmlCleanup.TrimKeepsNoTag | parseReadme.js:13 | trimming creates no `<` before a `>` |
| HtmlCleanup.StripTags | parseReadme.js:8-11 | the four tag rewrites in the source's order; `HtmlCleanup.CleanHtmlLeavesNoTag` states what they remove |
| HtmlCleanup.CleanHtml | parseReadme.js:6-14 | `cleanHTML`; `HtmlCleanup.CleanHtmlIsNormalised` and `HtmlCleanup.CleanHtmlLeavesNoTag` state its properties |
| HtmlCleanup.CleanHtmlIsNormalised | parseReadme.js:6-14 | `cleanHTML` output has no whitespace at either end and no whitespace but single spaces |
| HtmlCleanup.ReplaceAllKeepsSingleLine | parseReadme.js:8-11 | replacing adds no line terminator |
| HtmlCleanup.CleanHtmlLeavesNoTag | parseReadme.js:8-14 | on a one-line cell, no `<` of `cleanHTML` output has a `>` after it |
| MarkdownLink.CloseBracketOpenParen | parseReadme.js:40 | the literal `](` is found exactly where those two characters stand |
| MarkdownLink.CloseParen | parseReadme.js:40 | the literal `)` is found exactly where that character stands |
| MarkdownLink.FirstGroupEnd | parseReadme.js:40 | every match from a `[` ends its first group at or after the first `](` on the line |
| MarkdownLink.SecondGroupEnd | parseReadme.js:40 | every match ends its second group at or after the first `)` that follows |
| MarkdownLink.LinkFromCorrect | parseReadme.js:40 | from a `[`, the scanner finds the lazy match or reports correctly that there is none |
| MarkdownLink.FindLinkFrom | parseReadme.js:40 | a reported match starts at or after the start and its `](` and `)` lie inside the text |
| MarkdownLink.FindLinkFromCorrect | parseReadme.js:40 | the reported match is the leftmost lazy match at or after the start; none means no match there |
| MarkdownLink.FindLink | parseReadme.js:40 | the reported match's `[`, `](` and `)` lie in order inside the text |
| MarkdownLink.FindLinkCorrect | parseReadme.js:40 | `match` reports the leftmost, then lazy, match, and reports none exactly when the expression matches nowhere |
| MarkdownLink.MatchLink | parseReadme.js:40-44 | the two groups of the reported match; `MarkdownLink.FindLinkCorrect` states which match it is, `MarkdownLink.FirstLinkIsReported` that it captures that match's groups, and `MarkdownLink.MatchRenderedLink` that it takes a rendered link apart |
| MarkdownLink.FirstLinkIsReported | parseReadme.js:40-44 | `match` captures the text and url of the leftmost, then lazy, match |
| MarkdownLink.RenderedLayout | parseReadme.js:40 | a rendered `[text](url)` has its brackets, text and url at fixed positions |
| MarkdownLink.LaidOutTextHasNoClose | parseReadme.js:40 | a laid-out link has no `](` inside its text |
| MarkdownLink.LaidOutUrlHasNoParen | parseReadme.js:40 | a laid-out link has no `)` inside its url |
| MarkdownLink.LaidOutIsLinkShape | parseReadme.js:40 | a laid-out link with one-line text and url is a match of the expression |
| MarkdownLink.FirstLinkAtOrBefore | parseReadme.js:40 | the reported match starts no later than any match, with the same start closes its first group no later, and with that too its second group |
| MarkdownLink.MatchLaidOutLink | parseReadme.js:40 | the match in a laid-out link spans the whole of it |
| MarkdownLink.MatchRenderedLink | parseReadme.js:40-44 | matching a rendered link gives back its text and url |
| ApplyLink.FirstApplyHref | parseReadme.js:62-70 | the href of the first qualifying anchor, or `''`; `ApplyLink.FirstApplyHrefIsFirstQualifying` states it |
| ApplyLink.ApplyFor | parseReadme.js:59-73 | `apply` after the `try`/`catch`: `''` when loading failed, otherwise `ApplyLink.FirstApplyHref` of the anchors |
| ApplyLink.FirstApplyHrefIsFirstQualifying | parseReadme.js:62-70 | the apply link is empty exactly when no anchor qualifies, and is otherwise the href of the first qualifying anchor |
| ApplyLink.ApplyHref | parseReadme.js:59-73 | the early-exit scan over the anchors returns the first qualifying href, or `""` when none qualifies or loading failed |
| Table.TableEnd | parseReadme.js:29 | the table ends at the first line at or after the start that ends the table, or one past the last line when none does |
| Table.Rows | parseReadme.js:27-86 | the walk gives exactly one record per listed line; `Table.RowAt` states which record |
| Table.RecordLines | parseReadme.js:31-32 | only lines with at least five cells are listed |
| Table.RecordLinesSound | parseReadme.js:27-32 | the listed lines increase strictly and lie between the start and the end of the table |
| Table.RecordLinesComplete | parseReadme.js:27-32 | every line with enough cells before the end of the table is listed |
| Table.RowAt | parseReadme.js:37-48 | record k is the k-th listed row parsed with the company and link the record before it left, or the initial ones for the first record |
| Table.RowAfter | parseReadme.js:37-48 | every record after the first is parsed with the company and link carried by the record before it |
| Table.SkipShortRow | parseReadme.js:31-32 | a short row adds no record and leaves the carried company and link unchanged |
| Table.TakeTableRow | parseReadme.js:47-48 | a table row appends its record and carries its company and link forward |
| Parser.HeaderFrom | parseReadme.js:21 | the search finds the first line at or after the start that holds `\| Company \|`, or -1 |
| Parser.HeaderFromFindsFirst | parseReadme.js:21 | the line found holds `\| Company \|` and no line between the start and it does, nor any line at all when -1 is returned |
| Parser.HeaderIndex | parseReadme.js:21 | `findIndex` gives -1 or an index of a line |
| Parser.Cells | parseReadme.js:31 | cell k is the k-th `\|`-separated piece, trimmed |
| Parser.LeadingCellIsEmpty | parseReadme.js:34 | a line starting with `\|` has an empty first cell, the skipped `_` |
| Parser.Classify | parseReadme.js:28-34 | a line ends the table exactly when, trimmed, it does not start with `\|`; it is skipped exactly when it starts with `\|` and splits into fewer than five pieces; otherwise its cells are its second to fifth pieces, trimmed |
| Parser.ClassifyAll | parseReadme.js:27-34 | there is one class per line |
| Parser.ClassifyAllAt | parseReadme.js:27-34 | entry j of the classification is the class of line j |
| Parser.ResolveCompany | parseReadme.js:37-46 | the resolved company name is trimmed and holds no `**`; `Parser.LinkInCell` (cell with a link), `Parser.PlainCompanyHasNoLink` (cell without one), `Parser.BoldCompany`, `Parser.LinkedCompany` and `Parser.ContinuationKeepsCompany` state where the name and link come from |
| Parser.LinkInCell | parseReadme.js:37-46 | a cell other than `↳` holding a markdown link anywhere, `**[Acme](u)**` for instance, takes its name from the first match's text without `**` and trimmed, and its link from that match's url |
| Parser.BoldAt | parseReadme.js:46 | `**` occurs at a position exactly when two asterisks stand there |
| Parser.SliceKeepsUnbolded | parseReadme.js:46 | a slice of a string without `**` has none either |
| Parser.TrimKeepsUnbolded | parseReadme.js:46 | trimming a name without `**` creates no `**` |
| Parser.CleanNameIsKept | parseReadme.js:46 | a trimmed name without `**` is left unchanged by the bold removal and trim |
| Parser.ContinuationKeepsCompany | parseReadme.js:37-48 | a `↳` row keeps the carried company and link when that company holds no Markdown link |
| Parser.LeadingContinuation | parseReadme.js:24-25 | a `↳` row before any record gets the empty company and the empty-string link |
| Parser.PlainCompanyHasNoLink | parseReadme.js:38-46 | a company cell without a Markdown link gets as its name the cell with every `**` removed and then trimmed, and a `null` link; a clean name is kept as it is |
| Parser.BoldCompany | parseReadme.js:37-46 | a bold cell `**name**`, such as `**Acme**`, with a trimmed name free of `*` and `[`, gives exactly that name and a `null` link |
| Parser.LinkedCompany | parseReadme.js:40-46 | a `[text](url)` cell gives the text, without `**` and trimmed, as company and the url as link |
| Parser.ParseRow | parseReadme.js:37-56 | a record's company is trimmed and free of `**`, its location is normalised, and each flag is set exactly when the lower-cased location contains `remote` or `hybrid` |
| Parser.RowParserParses | parseReadme.js:85 | the walk's row parser is `ParseRow` with the loader fixed |
| Parser.RowParserParsesWith | parseReadme.js:85 | the walk's row parser agrees with `ParseRow` on every context and row |
| Parser.Parse | parseReadme.js:20-86 | the records of a document; `Parser.ParseFollowsTable`, `Parser.ParsedRecord` and `Parser.RecordsAreClean` state what they are |
| Parser.TableStartAfterHeader | parseReadme.js:21-27 | scanning starts two lines below the first header line, and at line 1 exactly when there is no header |
| Parser.ParsedCompanyIsClean | parseReadme.js:46 | every parsed company is trimmed and free of `**` |
| Parser.ContinuationJob | parseReadme.js:37-48 | a `↳` row after a record repeats its company and link when that company holds no Markdown link |
| Parser.ParseFollowsTable | parseReadme.js:27-32 | a document gives exactly one record per row with enough cells before the table ends |
| Parser.ParsedRecord | parseReadme.js:37-85 | record k of a document is the k-th table row parsed with the company and link carried from record k-1 |
| Parser.RecordsAreClean | parseReadme.js:46-56 | every record has a clean company, a normalised location and flags that match the location |
| Parser.ContinuationRowInherits | parseReadme.js:37-48 | a `↳` record repeats the company and link of the record before it |
| Parser.ResolveCompanyCell | parseReadme.js:37-46 | the company statements of the loop body yield exactly `ResolveCompany` of the carried company and link and the cell: inherited for `↳`, text and url of the first markdown link, `**` removed and trimmed |
| Parser.ParseTableRow | parseReadme.js:37-56 | the statements of the loop body build exactly the record `ParseRow` describes for the carried company and link |
| Parser.ReadLine | parseReadme.js:28-34 | the loop head classifies the line as `Parser.Classify` does: it stops exactly at a trimmed line without a leading `\|` and skips exactly a line with fewer than five pieces |
| Parser.ReadLineAt | parseReadme.js:28-34 | reading line i gives that line's class |
| Parser.ParseReadme | parseReadme.js:20-26 | splitting, the header search and the walk from two lines below it give exactly the records of `Parse` |
| Parser.CollectRecords | parseReadme.js:27-86 | the loop, with `break`, and a short-row arm that moves to the next line as `continue` does, collects exactly the records of the walk `Rows` from its start line |
| Watcher.LastHash | watchReadme.js:18-21 | the stored hash, or `''` without a hash file; used by `Watcher.ParsesIffChanged` |
| Watcher.Step | watchReadme.js:13-41 | one run as a value; `Watcher.ParsesIffChanged`, `Watcher.StoredHashFollowsContent`, `Watcher.QuietRunsKeepHashFile` and `Watcher.RerunIsUnchanged` state it |
| Watcher.ParsesIffChanged | watchReadme.js:23-28 | the parser runs exactly when the fetch succeeded and the digest differs from the stored hash, a missing file counting as `''` |
| Watcher.StoredHashFollowsContent | watchReadme.js:26-35 | after any run whose fetch succeeded, the hash file holds that digest, even when the parser failed |
| Watcher.QuietRunsKeepHashFile | watchReadme.js:36-41 | a run that does not reparse leaves the hash file unchanged, and a failed fetch does nothing else |
| Watcher.RerunIsUnchanged | watchReadme.js:16-38 | a second run on the same content skips the parse and leaves the hash file as it is |
| Watcher.FirstRunParses | watchReadme.js:18-23 | without a hash file, a non-empty digest always makes the run parse and store that digest |
| Watcher.ReadmeWatcher.constructor | watchReadme.js:7 | the watcher starts with the given digest function and hash file |
| Watcher.ReadmeWatcher.Run | watchReadme.js:13-41 | one run changes the hash file as `Step` says and reparses exactly when the digest of the fetched text differs from the stored hash |

## Left out

- HTTP fetching (parseReadme.js:17-18, watchReadme.js:13-14) is I/O. The parser receives the
  text. A watcher run receives the fetched text, or `None` when `fetch` or `res.text()` threw.
- The file system (watchReadme.js:19-20, 34) is I/O. The hash file is the field
  `ReadmeWatcher.stored`. A failing read or write, which the outer `catch` would report, is not
  modelled.
- `execSync('node parseReadme.js')` (watchReadme.js:28) is a child process. Its success is an
  input to `Run`, and the watcher does not call `ParseReadme`.
- The MD5 digest (watchReadme.js:16) is a foreign call. It is the `digest` function given to
  the watcher.
- `cheerio.load` and its selectors (parseReadme.js:61-65) are an unseen library. A loaded
  fragment is given as its anchors, each with its first image's `alt` and its own `href`, or as
  a load failure. The loader is a parameter of the parser.
- Console logging (parseReadme.js:72, 76-83, 88 and every `console` call of watchReadme.js)
  is output only.
- `supabase/functions/notify-sms/index.ts` and `test_sms.js` are not part of this model. They
  are an HTTP handler around an SMS service and a manual test script.
- JavaScript's Unicode behaviour is not modelled. `\s`, `trim`, `toLowerCase`, the `i` flag
  and the line terminators excluded by `.` are approximated by their ASCII parts.
- Parser.ContinuationRowInherits: requires that the previous record's company holds no
  Markdown link. A company such as `[[a]**(b)](c)` becomes `[a](b)` only after bold removal,
  and a following `↳` row then extracts `a` again.
- Parser.ContinuationJob: the same requirement as `Parser.ContinuationRowInherits`.
- Parser.ContinuationKeepsCompany: the same requirement as `Parser.ContinuationRowInherits`.
- HtmlCleanup.CleanHtmlLeavesNoTag: requires a cell without line terminators. `.` in
  `<.*?>` does not cross a line break, so a tag split over two lines stays in the output.
- Watcher.FirstRunParses: assumes only that the digest is non-empty, not that it is 32
  hexadecimal characters.
- MarkdownLink.MatchRenderedLink: requires a text without `](` and a url without `)`.
  Other texts and urls are split differently by the lazy groups.
- MarkdownLink.MatchLaidOutLink: the same requirement as `MarkdownLink.MatchRenderedLink`.
- Rewrite.CopiedPrefix: covers the output only up to its first comma, whether inserted or
  copied. `Rewrite.CopiedUntilMatch` covers it up to the first match of the expression.

=== FILE: apply_link.dfy ===
/** The apply-link lookup of parseReadme.js:59-73: load the apply cell as an HTML fragment,
    walk its `<a>` elements in document order, and take the `href` of the first one whose
    image's `alt` text mentions "apply".  The HTML parser itself is not part of this model:
    a loaded fragment is given as the list of its anchors, each with the `alt` attribute of
    the first `<img>` inside it and its own `href`. */
module ApplyLink {
  import opened Text

  /** One `<a>` element: `$(el).find('img').attr('alt')` and `$(el).attr('href')`, each
      `None` when JavaScript would see `undefined`. */
  datatype Anchor = Anchor(imgAlt: Option<string>, href: Option<string>)

  /** The outcome of `cheerio.load(applyRaw)`: the anchors of the fragment, or the exception
      that the surrounding `try` catches. */
  datatype Fragment = Loaded(anchors: seq<Anchor>) | LoadFailed

  /** `imgAlt && imgAlt.toLowerCase().includes('apply') && href`: both attributes present and
      non-empty (the empty string is falsy), and the lower-cased alt text contains "apply". */
  predicate Qualifies(a: Anchor) {
    a.imgAlt.Some? && a.imgAlt.value != [] &&
    Includes(LowerString(a.imgAlt.value), "apply") &&
    a.href.Some? && a.href.value != []
  }

  /** The `href` of the first qualifying anchor, or the initial `''`. */
  function FirstApplyHref(anchors: seq<Anchor>): string {
    if anchors == [] then ""
    else if Qualifies(anchors[0]) then anchors[0].href.value
    else FirstApplyHref(anchors[1..])
  }

  /** The value `apply` holds after the `try`/`catch`. */
  function ApplyFor(f: Fragment): string {
    match f
    case LoadFailed => ""
    case Loaded(anchors) => FirstApplyHref(anchors)
  }

  /** The apply link is the `href` of the first qualifying anchor: it is empty exactly when
      no anchor qualifies, and otherwise it belongs to an anchor that qualifies with none
      qualifying before it. */
  lemma {:induction false} FirstApplyHrefIsFirstQualifying(anchors: seq<Anchor>)
    ensures FirstApplyHref(anchors) == "" <==> forall k :: 0 <= k < |anchors| ==> !Qualifies(anchors[k])
    ensures FirstApplyHref(anchors) != "" ==>
      exists k :: 0 <= k < |anchors| && Qualifies(anchors[k]) &&
        anchors[k].href.value == FirstApplyHref(anchors) &&
        forall j :: 0 <= j < k ==> !Qualifies(anchors[j])
  {
    if anchors != [] && !Qualifies(anchors[0]) {
      var rest := anchors[1..];
      FirstApplyHrefIsFirstQualifying(rest);
      assert forall k :: 1 <= k < |anchors| ==> anchors[k] == rest[k - 1];
      if FirstApplyHref(rest) != "" {
        var k :| 0 <= k < |rest| && Qualifies(rest[k]) &&
          rest[k].href.value == FirstApplyHref(rest) && forall j :: 0 <= j < k ==> !Qualifies(rest[j]);
        assert Qualifies(anchors[k + 1]) && anchors[k + 1].href.value == FirstApplyHref(anchors);
      }
    } else if anchors != [] {
      assert Qualifies(anchors[0]);
    }
  }

  /** `$('a').each(...)` with the early `return false`: scan the anchors in order and stop at
      the first that qualifies.  A fragment that failed to load leaves `apply` empty. */
  method ApplyHref(f: Fragment) returns (apply: string)
    ensures apply == ApplyFor(f)
  {
    apply := "";
    if f.LoadFailed? {
      return;
    }
    var anchors := f.anchors;
    var i := 0;
    while i < |anchors|
      invariant 0 <= i <= |anchors|
      invariant apply == ""
      invariant FirstApplyHref(anchors[i..]) == FirstApplyHref(anchors)
    {
      var a := anchors[i];
      if a.imgAlt.Some? && a.imgAlt.value != [] && Includes(LowerString(a.imgAlt.value), "apply") &&
         a.href.Some? && a.href.value != [] {
        apply := a.href.value;
        return;
      }
      assert anchors[i..][1..] == anchors[i + 1..];
      i := i + 1;
    }
  }
}

=== FILE: clean_html.dfy ===
/** `cleanHTML` (parseReadme.js:6-14), applied to a location cell: four regular-expression
    replacements, whitespace squishing, and trimming. */
module HtmlCleanup {
  import opened Text
  import opened Rewrite

  /** The characters of `s` that are not whitespace, in order. */
  function NonSpace(s: string): string
    decreases |s|
  {
    if s == [] then [] else (if IsSpace(s[0]) then [] else [s[0]]) + NonSpace(s[1..])
  }

  lemma {:induction false} InNonSpace(s: string, c: char)
    requires !IsSpace(c)
    ensures c in NonSpace(s) <==> c in s
    decreases |s|
  {
    if s != [] {
      InNonSpace(s[1..], c);
      assert s == [s[0]] + s[1..];
    }
  }

  /** Whitespace at `i` and again at `i + 1`. */
  predicate DoubleSpaceAt(r: string, i: int) {
    0 <= i && i + 1 < |r| && IsSpace(r[i]) && IsSpace(r[i + 1])
  }

  /** `s.replace(/\s+/g, ' ')`: each run of whitespace becomes a single space.  The result
      holds no whitespace other than single spaces, starts with whitespace exactly when `s`
      does, and keeps every other character of `s`, in order. */
  function Squish(s: string): (r: string)
    ensures s != [] ==> r != [] && (IsSpace(r[0]) <==> IsSpace(s[0]))
    ensures forall i :: 0 <= i < |r| && IsSpace(r[i]) ==> r[i] == ' '
    ensures forall i :: 0 <= i < |r| ==> !DoubleSpaceAt(r, i)
    ensures NonSpace(r) == NonSpace(s)
    decreases |s|
  {
    if s == [] then []
    else if |s| > 1 && IsSpace(s[0]) && IsSpace(s[1]) then Squish(s[1..])
    else
      var rest := Squish(s[1..]);
      var r := [if IsSpace(s[0]) then ' ' else s[0]] + rest;
      assert r[1..] == rest;
      assert forall i :: DoubleSpaceAt(r, i) && i > 0 ==> DoubleSpaceAt(rest, i - 1);
      r
  }

  /** A run of whitespace before a non-whitespace character (or the end) becomes one space. */
  lemma {:induction false} SquishSpaceRun(w: string, t: string)
    requires w != [] && AllSpace(w)
    requires t == [] || !IsSpace(t[0])
    ensures Squish(w + t) == [' '] + Squish(t)
    decreases |w|
  {
    var s := w + t;
    assert s[1..] == w[1..] + t;
    if |w| == 1 {
      assert s[1..] == t;
      assert IsSpace(s[0]);
    } else {
      assert IsSpace(s[0]) && IsSpace(s[1]);
      SquishSpaceRun(w[1..], t);
    }
  }

  /** Between a word and what follows, a whitespace run of any length leaves exactly one
      space: squishing never joins two words. */
  lemma SquishKeepsWordBreak(c: char, w: string, t: string)
    requires !IsSpace(c) && w != [] && AllSpace(w)
    requires t == [] || !IsSpace(t[0])
    ensures Squish([c] + w + t) == [c, ' '] + Squish(t)
  {
    var s := [c] + w + t;
    assert s[1..] == w + t;
    SquishSpaceRun(w, t);
  }

  /** A text whose whitespace is already single spaces is left as it is. */
  lemma {:induction false} SquishOfSingleSpaced(s: string)
    requires SingleSpaced(s)
    ensures Squish(s) == s
    decreases |s|
  {
    if s != [] {
      assert !DoubleSpaceAt(s, 0);
      SuffixKeepsSingleSpaced(s, 1);
      SquishOfSingleSpaced(s[1..]);
      assert [s[0]] + s[1..] == s;
    }
  }

  /** No `<` of `s` has a `>` anywhere after it. */
  predicate NoTagOpenBeforeClose(s: string) {
    forall i, j :: 0 <= i < j < |s| && s[i] == '<' ==> s[j] != '>'
  }

  lemma {:induction false} SquishKeepsNoTag(s: string)
    requires NoTagOpenBeforeClose(s)
    ensures NoTagOpenBeforeClose(Squish(s))
    decreases |s|
  {
    if s != [] {
      var t := s[1..];
      assert NoTagOpenBeforeClose(t) by {
        forall i, j | 0 <= i < j < |t| && t[i] == '<' ensures t[j] != '>' {
          assert s[i + 1] == '<' && s[j + 1] == t[j];
        }
      }
      SquishKeepsNoTag(t);
      if !(|s| > 1 && IsSpace(s[0]) && IsSpace(s[1])) {
        var r := Squish(s);
        var rest := Squish(t);
        assert r == [if IsSpace(s[0]) then ' ' else s[0]] + rest;
        if s[0] == '<' {
          assert '>' !in t by {
            forall j | 0 <= j < |t| ensures t[j] != '>' { assert s[j + 1] == t[j]; }
          }
          InNonSpace(t, '>');
          InNonSpace(rest, '>');
        }
        forall i, j | 0 <= i < j < |r| && r[i] == '<' ensures r[j] != '>' {
          assert r[j] == rest[j - 1];
          if i > 0 {
            assert rest[i - 1] == '<';
          } else {
            assert rest[j - 1] in rest;
          }
        }
      }
    }
  }

  /** Whitespace occurs only as single spaces. */
  predicate SingleSpaced(r: string) {
    (forall i :: 0 <= i < |r| && IsSpace(r[i]) ==> r[i] == ' ') &&
    (forall i :: 0 <= i < |r| ==> !DoubleSpaceAt(r, i))
  }

  /** The whitespace shape every cleaned cell has: trimmed, whitespace only as single spaces. */
  predicate IsNormalised(r: string) {
    IsTrimmed(r) && SingleSpaced(r)
  }

  lemma SuffixKeepsSingleSpaced(q: string, a: int)
    requires SingleSpaced(q) && 0 <= a <= |q|
    ensures SingleSpaced(q[a..])
  {
    var r := q[a..];
    forall i | 0 <= i < |r| && IsSpace(r[i]) ensures r[i] == ' ' {
      assert r[i] == q[a + i];
    }
    forall i | 0 <= i < |r| ensures !DoubleSpaceAt(r, i) {
      assert !DoubleSpaceAt(q, a + i);
    }
  }

  lemma PrefixKeepsSingleSpaced(q: string, b: int)
    requires SingleSpaced(q) && 0 <= b <= |q|
    ensures SingleSpaced(q[..b])
  {
    var r := q[..b];
    forall i | 0 <= i < |r| ensures !DoubleSpaceAt(r, i) {
      assert !DoubleSpaceAt(q, i);
    }
  }

  lemma TrimKeepsSingleSpaced(q: string)
    requires SingleSpaced(q)
    ensures SingleSpaced(Trim(q))
  {
    var t := TrimStart(q);
    SuffixKeepsSingleSpaced(q, |q| - |t|);
    PrefixKeepsSingleSpaced(t, |TrimEnd(t)|);
  }

  lemma SliceKeepsNoTag(q: string, a: int, b: int)
    requires NoTagOpenBeforeClose(q) && 0 <= a <= b <= |q|
    ensures NoTagOpenBeforeClose(q[a..b])
  {
    var r := q[a..b];
    forall i, j | 0 <= i < j < |r| && r[i] == '<' ensures r[j] != '>' {
      assert r[i] == q[a + i] && r[j] == q[a + j];
    }
  }

  lemma TrimKeepsNoTag(q: string)
    requires NoTagOpenBeforeClose(q)
    ensures NoTagOpenBeforeClose(Trim(q))
  {
    var t := TrimStart(q);
    assert t == q[|q| - |t|..|q|];
    SliceKeepsNoTag(q, |q| - |t|, |q|);
    SliceKeepsNoTag(t, 0, |TrimEnd(t)|);
  }

  /** The tag-stripping part of `cleanHTML`: line-break tags become `, `, disclosure tags are
      dropped, summary spans are dropped with their text, and every other tag is dropped. */
  function StripTags(html: string): string {
    ReplaceAll(AnyTag, ReplaceAll(SummarySpan, ReplaceAll(DetailsTag, ReplaceAll(BreakTag, html))))
  }

  function CleanHtml(html: string): string {
    Trim(Squish(StripTags(html)))
  }

  /** `cleanHTML` output has no whitespace at either end and no whitespace but single spaces. */
  lemma CleanHtmlIsNormalised(html: string)
    ensures IsNormalised(CleanHtml(html))
  {
    var q := Squish(StripTags(html));
    assert SingleSpaced(q);
    TrimKeepsSingleSpaced(q);
  }

  predicate SingleLine(s: string) {
    forall i :: 0 <= i < |s| ==> !IsLineTerminator(s[i])
  }

  lemma ReplaceAllKeepsSingleLine(p: Pattern, s: string)
    requires SingleLine(s)
    ensures SingleLine(ReplaceAll(p, s))
  {
    var r := ReplaceAll(p, s);
    ReplaceAllDrawsFrom(p, s);
    forall i | 0 <= i < |r| ensures !IsLineTerminator(r[i]) {
      if r[i] in s {
        var k :| 0 <= k < |s| && s[k] == r[i];
      }
    }
  }

  /** On a cell without line terminators, no `<` is left before a `>` in `cleanHTML`'s
      output: the catch-all tag pass takes every such pair out, and squishing and trimming
      keep the remaining characters in order. */
  lemma CleanHtmlLeavesNoTag(html: string)
    requires SingleLine(html)
    ensures NoTagOpenBeforeClose(CleanHtml(html))
  {
    var t1 := ReplaceAll(BreakTag, html);
    ReplaceAllKeepsSingleLine(BreakTag, html);
    var t2 := ReplaceAll(DetailsTag, t1);
    ReplaceAllKeepsSingleLine(DetailsTag, t1);
    var t3 := ReplaceAll(SummarySpan, t2);
    ReplaceAllKeepsSingleLine(SummarySpan, t2);
    var t4 := ReplaceAll(AnyTag, t3);
    ReplaceAllKeepsSingleLine(AnyTag, t3);
    NoTagLeftOnLine(t3);
    assert NoTagOpenBeforeClose(t4) by {
      forall i, j | 0 <= i < j < |t4| && t4[i] == '<' ensures t4[j] != '>' {
        assert NoLineBreak(t4, i, j);
      }
    }
    SquishKeepsNoTag(t4);
    TrimKeepsNoTag(Squish(t4));
  }
}

=== FILE: markdown_link.dfy ===
/** `company.match(/\[(.*?)\]\((.*?)\)/)` (parseReadme.js:40): the first markdown link
    `[text](url)` in a company cell.  The expression is given declaratively (`LinkShape` is
    every way it can match, `FirstLink` the one a backtracking matcher reports: leftmost
    start, then the shortest first group, then the shortest second group), and `FindLink`
    is a scanner proved to report exactly that match. */
module MarkdownLink {
  import opened Text
  import opened Rewrite

  /** A match of `\[(.*?)\]\((.*?)\)` in `s`: `[` at `p`, `](` at `q`, `)` at `r`, and no line
      terminator inside either group (`.` does not match one). */
  predicate LinkShape(s: string, p: int, q: int, r: int) {
    0 <= p < q && q + 2 <= r < |s| &&
    s[p] == '[' && s[q] == ']' && s[q + 1] == '(' && s[r] == ')' &&
    NoLineBreak(s, p + 1, q) && NoLineBreak(s, q + 2, r)
  }

  /** At start `p` the lazy groups pick the smallest `q`, then the smallest `r`. */
  ghost predicate LazyAt(s: string, p: int, q: int, r: int) {
    LinkShape(s, p, q, r) &&
    (forall q', r' :: LinkShape(s, p, q', r') ==> q <= q') &&
    (forall r' :: LinkShape(s, p, q, r') ==> r <= r')
  }

  /** The match `String.prototype.match` reports: the leftmost start, lazily. */
  ghost predicate FirstLink(s: string, p: int, q: int, r: int) {
    LazyAt(s, p, q, r) && forall p', q', r' :: LinkShape(s, p', q', r') ==> p <= p'
  }

  datatype Span = Span(p: nat, q: nat, r: nat)

  /** The captured groups: `match[1]` and `match[2]`. */
  datatype Link = Link(text: string, url: string)

  lemma CloseBracketOpenParen(s: string, j: int)
    ensures OccursAtIgnoringCase(s, j, "](") <==>
      0 <= j && j + 2 <= |s| && s[j] == ']' && s[j + 1] == '('
  {
    if 0 <= j && j + 2 <= |s| {
      LowerOfNonLetter(s[j], ']');
      LowerOfNonLetter(s[j + 1], '(');
      assert "]("[0] == ']' && "]("[1] == '(';
      assert Lower(']') == ']' && Lower('(') == '(';
    }
  }

  lemma CloseParen(s: string, j: int)
    ensures OccursAtIgnoringCase(s, j, ")") <==> 0 <= j < |s| && s[j] == ')'
  {
    if 0 <= j < |s| {
      LowerOfNonLetter(s[j], ')');
      assert ")"[0] == ')';
      assert Lower(')') == ')';
    }
  }

  /** The match starting at the `[` at `p`, if the rest of the expression can follow it. */
  function LinkFrom(s: string, p: nat): Option<Span> {
    match FindOnLine(s, p + 1, "](")
    case None => None
    case Some(q) =>
      match FindOnLine(s, q + 2, ")")
      case None => None
      case Some(r) => Some(Span(p, q, r))
  }

  /** Any match at `p` ends its first group no earlier than the first `](` on the line. */
  lemma FirstGroupEnd(s: string, p: nat, q': int, r': int)
    requires LinkShape(s, p, q', r')
    ensures FindOnLine(s, p + 1, "](").Some? && FindOnLine(s, p + 1, "](").value <= q'
  {
    CloseBracketOpenParen(s, q');
  }

  /** Any match at `p` ends its second group no earlier than the first `)` on the line after
      the first `](`. */
  lemma SecondGroupEnd(s: string, p: nat, q: nat, q': int, r': int)
    requires LinkShape(s, p, q', r')
    requires FindOnLine(s, p + 1, "](") == Some(q)
    ensures FindOnLine(s, q + 2, ")").Some? && FindOnLine(s, q + 2, ")").value <= r'
  {
    FirstGroupEnd(s, p, q', r');
    assert NoLineBreak(s, q + 2, r') by {
      forall i | q + 2 <= i < r' && 0 <= i < |s| ensures !IsLineTerminator(s[i]) {
        if i < q' {
          assert NoLineBreak(s, p + 1, q');
        } else if i >= q' + 2 {
          assert NoLineBreak(s, q' + 2, r');
        }
      }
    }
    CloseParen(s, r');
  }

  /** At a `[`, `LinkFrom` finds the lazy match when there is one and reports none otherwise. */
  lemma LinkFromCorrect(s: string, p: nat)
    requires p < |s| && s[p] == '['
    ensures LinkFrom(s, p).Some? ==>
      var m := LinkFrom(s, p).value; m.p == p && LazyAt(s, p, m.q, m.r)
    ensures LinkFrom(s, p).None? ==> forall q, r :: !LinkShape(s, p, q, r)
  {
    forall q', r' | LinkShape(s, p, q', r') ensures LinkFrom(s, p).Some? {
      FirstGroupEnd(s, p, q', r');
      SecondGroupEnd(s, p, FindOnLine(s, p + 1, "](").value, q', r');
    }
    if LinkFrom(s, p).Some? {
      var q := FindOnLine(s, p + 1, "](").value;
      var r := FindOnLine(s, q + 2, ")").value;
      CloseBracketOpenParen(s, q);
      CloseParen(s, r);
      assert LinkShape(s, p, q, r);
      forall q', r' | LinkShape(s, p, q', r') ensures q <= q' {
        FirstGroupEnd(s, p, q', r');
      }
      forall r' | LinkShape(s, p, q, r') ensures r <= r' {
        SecondGroupEnd(s, p, q, q, r');
      }
    }
  }

  /** The scan for the leftmost match starting at or after `from`: try each `[` in turn. */
  function FindLinkFrom(s: string, from: nat): (m: Option<Span>)
    ensures m.Some? ==> from <= m.value.p < m.value.q && m.value.q + 2 <= m.value.r < |s|
    decreases |s| - from
  {
    if from >= |s| then None
    else
      var here := if s[from] == '[' then LinkFrom(s, from) else None;
      if here.Some? then here else FindLinkFrom(s, from + 1)
  }

  /** The scan reports the leftmost lazy match at or after `from`, and none exactly when the
      expression matches nowhere from `from` on. */
  lemma {:induction false} FindLinkFromCorrect(s: string, from: nat)
    ensures var m := FindLinkFrom(s, from);
      m.Some? ==> (LazyAt(s, m.value.p, m.value.q, m.value.r) &&
        forall p', q', r' :: from <= p' && LinkShape(s, p', q', r') ==> m.value.p <= p')
    ensures FindLinkFrom(s, from).None? ==> forall p, q, r :: from <= p ==> !LinkShape(s, p, q, r)
    decreases |s| - from
  {
    if from < |s| {
      if s[from] == '[' {
        LinkFromCorrect(s, from);
      }
      if !(s[from] == '[' && LinkFrom(s, from).Some?) {
        FindLinkFromCorrect(s, from + 1);
        assert forall q, r :: !LinkShape(s, from, q, r);
      }
    }
  }

  /** `s.match(/\[(.*?)\]\((.*?)\)/)`: the span of the reported match, if any. */
  function FindLink(s: string): (m: Option<Span>)
    ensures m.Some? ==> m.value.p < m.value.q && m.value.q + 2 <= m.value.r < |s|
  {
    FindLinkFrom(s, 0)
  }

  /** `match` reports the leftmost, then lazy, match, and reports none exactly when the
      expression matches nowhere in `s`. */
  lemma FindLinkCorrect(s: string)
    ensures FindLink(s).Some? ==> FirstLink(s, FindLink(s).value.p, FindLink(s).value.q, FindLink(s).value.r)
    ensures FindLink(s).None? ==> forall p, q, r :: !LinkShape(s, p, q, r)
  {
    FindLinkFromCorrect(s, 0);
  }

  /** The two captured groups of the match, if any. */
  function MatchLink(s: string): Option<Link> {
    match FindLink(s)
    case None => None
    case Some(m) => Some(Link(s[m.p + 1..m.q], s[m.q + 2..m.r]))
  }

  /** `match` captures the two groups of the leftmost, then lazy, match. */
  lemma FirstLinkIsReported(s: string, p: int, q: int, r: int)
    requires FirstLink(s, p, q, r)
    ensures MatchLink(s) == Some(Link(s[p + 1..q], s[q + 2..r]))
  {
    FindLinkCorrect(s);
    var m := FindLink(s).value;
    FirstLinkAtOrBefore(s, m.p, m.q, m.r, p, q, r);
    FirstLinkAtOrBefore(s, p, q, r, m.p, m.q, m.r);
    assert m == Span(p, q, r);
  }

  /** Markdown for a link. */
  function RenderLink(text: string, url: string): string {
    "[" + text + "](" + url + ")"
  }

  /** `s` is `[`, `text`, `](`, `url`, `)` one after the other. */
  predicate LaidOut(s: string, text: string, url: string) {
    |s| == |text| + |url| + 4 && s[0] == '[' &&
    s[|text| + 1] == ']' && s[|text| + 2] == '(' && s[|s| - 1] == ')' &&
    s[1..|text| + 1] == text && s[|text| + 3..|s| - 1] == url
  }

  lemma RenderedLayout(text: string, url: string)
    ensures LaidOut(RenderLink(text, url), text, url)
  {
  }

  /** A laid-out link holds no `](` before the one that closes its text. */
  lemma LaidOutTextHasNoClose(s: string, text: string, url: string, j: int)
    requires LaidOut(s, text, url)
    requires forall j :: !OccursAt(text, j, "](")
    requires 1 <= j < |text| + 1
    ensures !(s[j] == ']' && s[j + 1] == '(')
  {
    if j + 1 < |text| + 1 {
      assert !OccursAt(text, j - 1, "](");
      assert s[j] == text[j - 1] && s[j + 1] == text[j];
    }
  }

  /** A laid-out link holds no `)` inside its url. */
  lemma LaidOutUrlHasNoParen(s: string, text: string, url: string, j: int)
    requires LaidOut(s, text, url)
    requires ')' !in url
    requires |text| + 3 <= j < |text| + 3 + |url|
    ensures s[j] != ')'
  {
    assert s[j] == url[j - |text| - 3];
  }

  /** A laid-out link whose text and url hold no line terminator is a match of the whole
      expression. */
  lemma LaidOutIsLinkShape(s: string, text: string, url: string)
    requires LaidOut(s, text, url)
    requires NoLineBreak(text, 0, |text|) && NoLineBreak(url, 0, |url|)
    ensures LinkShape(s, 0, |text| + 1, |text| + 3 + |url|)
  {
    var q := |text| + 1;
    var r := q + 2 + |url|;
    forall i | 1 <= i < q ensures !IsLineTerminator(s[i]) { assert s[i] == text[i - 1]; }
    forall i | q + 2 <= i < r ensures !IsLineTerminator(s[i]) { assert s[i] == url[i - q - 2]; }
  }

  /** The reported match starts no later than any other match, and with the same start ends
      its first group no later, and with that too its second group. */
  lemma FirstLinkAtOrBefore(s: string, p: int, q: int, r: int, p': int, q': int, r': int)
    requires FirstLink(s, p, q, r) && LinkShape(s, p', q', r')
    ensures p <= p'
    ensures p == p' ==> q <= q' && (q == q' ==> r <= r')
    ensures LinkShape(s, p, q, r)
  {
  }

  /** The match in a laid-out link is the whole of it. */
  lemma MatchLaidOutLink(s: string, text: string, url: string)
    requires LaidOut(s, text, url)
    requires forall j :: !OccursAt(text, j, "](")
    requires ')' !in url
    requires NoLineBreak(text, 0, |text|) && NoLineBreak(url, 0, |url|)
    ensures FindLink(s) == Some(Span(0, |text| + 1, |text| + 3 + |url|))
  {
    var q := |text| + 1;
    var r := q + 2 + |url|;
    LaidOutIsLinkShape(s, text, url);
    FindLinkCorrect(s);
    var m := FindLink(s).value;
    FirstLinkAtOrBefore(s, m.p, m.q, m.r, 0, q, r);
    assert m.q == q by {
      if m.q < q {
        LaidOutTextHasNoClose(s, text, url, m.q);
      }
    }
    assert m.r == r by {
      if m.r < r {
        LaidOutUrlHasNoParen(s, text, url, m.r);
      }
    }
  }

  /** Matching a rendered link gives back its text and url, provided the text holds no `](`,
      the url no `)`, and neither a line terminator. */
  lemma MatchRenderedLink(text: string, url: string)
    requires forall j :: !OccursAt(text, j, "](")
    requires ')' !in url
    requires NoLineBreak(text, 0, |text|) && NoLineBreak(url, 0, |url|)
    ensures MatchLink(RenderLink(text, url)) == Some(Link(text, url))
  {
    var s := RenderLink(text, url);
    RenderedLayout(text, url);
    MatchLaidOutLink(s, text, url);
  }
}

=== FILE: parser.dfy ===
/** The README table parser, parseReadme.js:20-86: find the header line, walk the table rows
    that follow it, and turn each row with enough cells into a job record.  A row whose company
    cell is the continuation arrow inherits the company (and its link) of the row before it.

    `Rows` is the specification of the loop as a fold over the lines, `ParseReadme` is the loop
    itself, and the lemmas characterise which lines become records and what each record holds. */
module Parser {
  import opened Text
  import opened Rewrite
  import opened HtmlCleanup
  import opened MarkdownLink
  import opened ApplyLink
  import opened Table

  /** The company cell of a row that continues the company above it. */
  const Continuation: string := "\U{21B3}"

  /** The substring that identifies the table's header line. */
  const HeaderMarker: string := "| Company |"

  /** No `**` anywhere in `s`. */
  ghost predicate Unbolded(s: string) {
    !Contains(s, "**")
  }

  /** `lines.findIndex(line => line.includes('| Company |'))` from index `k` on. */
  function HeaderFrom(lines: seq<string>, k: nat): (h: int)
    requires k <= |lines|
    ensures h == -1 || k <= h < |lines|
    decreases |lines| - k
  {
    if k == |lines| then -1
    else if Includes(lines[k], HeaderMarker) then k
    else HeaderFrom(lines, k + 1)
  }

  /** The scan finds the first line from `k` on that holds the marker, or -1 when none does. */
  lemma {:induction false} HeaderFromFindsFirst(lines: seq<string>, k: nat)
    requires k <= |lines|
    ensures var h := HeaderFrom(lines, k);
      (h >= 0 ==> Contains(lines[h], HeaderMarker)) &&
      forall j :: k <= j < |lines| && (h == -1 || j < h) ==> !Contains(lines[j], HeaderMarker)
    decreases |lines| - k
  {
    if k < |lines| && !Includes(lines[k], HeaderMarker) {
      HeaderFromFindsFirst(lines, k + 1);
    }
  }

  /** `findIndex`: the first line holding the header marker, or -1 when none does. */
  function HeaderIndex(lines: seq<string>): (h: int)
    ensures -1 <= h < |lines|
  {
    HeaderFrom(lines, 0)
  }

  /** `line.startsWith('|')`. */
  predicate StartsWithBar(line: string) {
    |line| > 0 && line[0] == '|'
  }

  /** `line.split('|').map(p => p.trim())`. */
  function Cells(line: string): (cells: seq<string>)
    ensures |cells| == |Split(line, '|')|
    ensures forall k :: 0 <= k < |cells| ==> cells[k] == Trim(Split(line, '|')[k]) && IsTrimmed(cells[k])
  {
    var pieces := Split(line, '|');
    seq(|pieces|, k requires 0 <= k < |pieces| => Trim(pieces[k]))
  }

  /** A table line starts with `|`, so the cell before the first bar is always empty: that is
      the `_` the row destructuring skips. */
  lemma LeadingCellIsEmpty(line: string)
    requires StartsWithBar(line)
    ensures Cells(line)[0] == ""
  {
    assert line == [line[0]] + line[1..];
    assert Split(line, '|') == [""] + Split(line[1..], '|');
  }

  /** What the loop does with one line: a line that does not start with `|` once trimmed ends
      the table, one that splits into fewer than five `|` pieces is skipped, and any other gives
      its second to fifth pieces, trimmed, as the four cells of a row. */
  function Classify(line: string): (k: LineKind)
    ensures k.EndOfTable? <==> !StartsWithBar(Trim(line))
    ensures k.ShortRow? <==> StartsWithBar(Trim(line)) && |Split(Trim(line), '|')| < 5
    ensures k.TableRow? ==>
      var pieces := Split(Trim(line), '|');
      |pieces| >= 5 &&
      k.row == RawRow(Trim(pieces[1]), Trim(pieces[2]), Trim(pieces[3]), Trim(pieces[4]))
    ensures k.TableRow? ==>
      IsTrimmed(k.row.company) && IsTrimmed(k.row.role) &&
      IsTrimmed(k.row.location) && IsTrimmed(k.row.apply)
  {
    var t := Trim(line);
    if !StartsWithBar(t) then EndOfTable
    else
      var cells := Cells(t);
      if |cells| < 5 then ShortRow
      else TableRow(RawRow(cells[1], cells[2], cells[3], cells[4]))
  }

  /** `classify` applied to every line, in order. */
  function MapLines(classify: string -> LineKind, lines: seq<string>): (kinds: seq<LineKind>)
    ensures |kinds| == |lines|
  {
    if lines == [] then [] else [classify(lines[0])] + MapLines(classify, lines[1..])
  }

  /** Entry `j` of the map is `classify` of line `j`. */
  lemma {:induction false} MapLinesAt(classify: string -> LineKind, lines: seq<string>, j: nat)
    requires j < |lines|
    ensures MapLines(classify, lines)[j] == classify(lines[j])
    decreases j
  {
    if j > 0 {
      MapLinesAt(classify, lines[1..], j - 1);
    }
  }

  /** The classification of every line, in order. */
  function ClassifyAll(lines: seq<string>): (kinds: seq<LineKind>)
    ensures |kinds| == |lines|
  {
    MapLines(Classify, lines)
  }

  /** Entry `j` of the classification is the class of line `j`. */
  lemma ClassifyAllAt(lines: seq<string>, j: nat)
    requires j < |lines|
    ensures ClassifyAll(lines)[j] == Classify(lines[j])
  {
    MapLinesAt(Classify, lines, j);
  }

  /** The company name and link of a row: inherit both from the previous row for the
      continuation arrow (a fresh company has no link), take text and url from the first
      markdown link when there is one, then drop every `**` and trim. */
  function ResolveCompany(ctx: Context, companyRaw: string): (c: Context)
    ensures IsTrimmed(c.company) && Unbolded(c.company)
  {
    var company := if companyRaw == Continuation then ctx.company else companyRaw;
    var link := if companyRaw == Continuation then ctx.link else None;
    var matched := MatchLink(company);
    var (name, url) := if matched.Some? then (matched.value.text, Some(matched.value.url)) else (company, link);
    var cleaned := Trim(ReplaceAll(Bold, name));
    NoBoldLeft(name);
    TrimKeepsUnbolded(ReplaceAll(Bold, name));
    Context(cleaned, url)
  }

  /** A company cell that is not the continuation arrow and holds a markdown link anywhere
      (for example inside `**`) takes its name from the first match's text, without `**` and
      trimmed, and its link from that match's url. */
  lemma LinkInCell(ctx: Context, cell: string, p: int, q: int, r: int)
    requires cell != Continuation && FirstLink(cell, p, q, r)
    ensures ResolveCompany(ctx, cell) == Context(Trim(ReplaceAll(Bold, cell[p + 1..q])), Some(cell[q + 2..r]))
  {
    FirstLinkIsReported(cell, p, q, r);
  }

  lemma BoldAt(s: string, i: int)
    ensures OccursAt(s, i, "**") <==> 0 <= i && i + 2 <= |s| && s[i] == '*' && s[i + 1] == '*'
  {
    if 0 <= i && i + 2 <= |s| && s[i] == '*' && s[i + 1] == '*' {
      assert s[i..i + 2] == "**";
    }
  }

  lemma SliceKeepsUnbolded(s: string, a: int, b: int)
    requires Unbolded(s) && 0 <= a <= b <= |s|
    ensures Unbolded(s[a..b])
  {
    var r := s[a..b];
    forall i ensures !OccursAt(r, i, "**") {
      BoldAt(r, i);
      BoldAt(s, a + i);
      if 0 <= i && i + 2 <= |r| {
        assert r[i] == s[a + i] && r[i + 1] == s[a + i + 1];
      }
    }
  }

  lemma TrimKeepsUnbolded(s: string)
    requires Unbolded(s)
    ensures Unbolded(Trim(s))
  {
    var t := TrimStart(s);
    assert t == s[|s| - |t|..|s|];
    SliceKeepsUnbolded(s, |s| - |t|, |s|);
    SliceKeepsUnbolded(t, 0, |TrimEnd(t)|);
  }

  /** A name that is already trimmed and free of `**` comes out of the bold removal and the
      trim unchanged. */
  lemma CleanNameIsKept(name: string)
    requires IsTrimmed(name) && Unbolded(name)
    ensures Trim(ReplaceAll(Bold, name)) == name
  {
    forall i, j | 0 <= i <= j <= |name| ensures !Matches(Bold, name[i..j]) {
      if j == i + 2 {
        BoldAt(name, i);
        assert name[i..j][0] == name[i] && name[i..j][1] == name[i + 1];
      }
    }
    NothingToReplace(Bold, name);
    TrimOfTrimmed(name);
  }

  /** A continuation row repeats the previous row's company and link, as long as the previous
      company holds no markdown link of its own. */
  lemma ContinuationKeepsCompany(ctx: Context)
    requires IsTrimmed(ctx.company) && Unbolded(ctx.company)
    requires MatchLink(ctx.company).None?
    ensures ResolveCompany(ctx, Continuation) == ctx
  {
    CleanNameIsKept(ctx.company);
  }

  /** A continuation row at the top of the table inherits the initial empty name and the
      initial empty-string link. */
  lemma LeadingContinuation()
    ensures ResolveCompany(Init, Continuation) == Init
  {
    assert FindLink("") == None;
    ContinuationKeepsCompany(Init);
  }

  /** A company cell without a markdown link gives the cell with every `**` removed and then
      trimmed as the name, and a `null` link. */
  lemma PlainCompanyHasNoLink(ctx: Context, companyRaw: string)
    requires companyRaw != Continuation
    requires MatchLink(companyRaw).None?
    ensures ResolveCompany(ctx, companyRaw) == Context(Trim(ReplaceAll(Bold, companyRaw)), None)
    ensures ResolveCompany(ctx, companyRaw).link == None
    ensures IsTrimmed(companyRaw) && Unbolded(companyRaw) ==>
      ResolveCompany(ctx, companyRaw).company == companyRaw
  {
    if IsTrimmed(companyRaw) && Unbolded(companyRaw) {
      CleanNameIsKept(companyRaw);
    }
  }

  /** A bold company cell such as `**Acme**` gives the name inside the `**` and no link. */
  lemma BoldCompany(ctx: Context, name: string)
    requires '*' !in name && '[' !in name && IsTrimmed(name)
    ensures ResolveCompany(ctx, "**" + name + "**") == Context(name, None)
  {
    var s := "**" + name + "**";
    assert |s| >= 4;
    assert MatchLink(s).None? by {
      FindLinkCorrect(s);
      assert '[' !in s;
    }
    PlainCompanyHasNoLink(ctx, s);
    BoldAroundRemoved(name);
    TrimOfTrimmed(name);
  }

  /** A company cell `[text](url)` gives the link text (without `**`, trimmed) as the company
      and the url as its link, whatever the previous row held. */
  lemma LinkedCompany(ctx: Context, text: string, url: string)
    requires forall j :: !OccursAt(text, j, "](")
    requires ')' !in url
    requires NoLineBreak(text, 0, |text|) && NoLineBreak(url, 0, |url|)
    ensures ResolveCompany(ctx, RenderLink(text, url)) ==
      Context(Trim(ReplaceAll(Bold, text)), Some(url))
  {
    MatchRenderedLink(text, url);
    assert RenderLink(text, url) != Continuation by {
      assert |RenderLink(text, url)| >= 4;
    }
  }

  /** The record for one table row: its company is trimmed and free of `**`, its location
      is normalised by `cleanHTML`, and each flag is set exactly when the lower-cased location
      contains "remote" or "hybrid" (by `LowerContains`, a search in any letter case). */
  function ParseRow(ctx: Context, row: RawRow, load: string -> Fragment): (job: Job)
    ensures IsTrimmed(job.company) && Unbolded(job.company)
    ensures IsNormalised(job.location)
    ensures job.isRemote <==> Contains(LowerString(job.location), "remote")
    ensures job.isHybrid <==> Contains(LowerString(job.location), "hybrid")
  {
    var c := ResolveCompany(ctx, row.company);
    var location := CleanHtml(row.location);
    CleanHtmlIsNormalised(row.location);
    var lower := LowerString(location);
    Job(c.company, row.role, location, ApplyFor(load(row.apply)), c.link,
        Includes(lower, "remote"), Includes(lower, "hybrid"))
  }

  /** The row parser with the HTML loader fixed, as the walk over the table uses it. */
  function RowParser(load: string -> Fragment): (Context, RawRow) -> Job {
    (ctx: Context, row: RawRow) => ParseRow(ctx, row, load)
  }

  /** `tableStart + 2`: the first line after the header and its separator line. */
  function TableStart(lines: seq<string>): nat {
    HeaderIndex(lines) + 2
  }

  /** The records the parser collects. */
  function Parse(text: string, load: string -> Fragment): seq<Job> {
    var lines := Split(text, '\n');
    Rows(ClassifyAll(lines), TableStart(lines), Init, RowParser(load))
  }

  /** Applying the row parser is parsing the row. */
  lemma RowParserParses(load: string -> Fragment, ctx: Context, row: RawRow)
    ensures RowParser(load)(ctx, row) == ParseRow(ctx, row, load)
  {
  }

  /** The walk starts two lines below the header; without a header line `findIndex` gives -1
      and the walk starts at line 1. */
  lemma TableStartAfterHeader(lines: seq<string>)
    ensures TableStart(lines) == 1 <==> forall j :: 0 <= j < |lines| ==> !Contains(lines[j], HeaderMarker)
    ensures TableStart(lines) > 1 ==> Contains(lines[TableStart(lines) - 2], HeaderMarker)
  {
    var h := HeaderIndex(lines);
    HeaderFromFindsFirst(lines, 0);
    if h >= 0 {
      assert Contains(lines[h], HeaderMarker);
    }
  }

  /** The company of a parsed row is trimmed and free of `**`. */
  lemma ParsedCompanyIsClean(ctx: Context, row: RawRow, load: string -> Fragment)
    ensures var job := RowParser(load)(ctx, row); IsTrimmed(job.company) && Unbolded(job.company)
  {
    assert RowParser(load)(ctx, row) == ParseRow(ctx, row, load);
  }

  /** A continuation row parsed after `prev` repeats its company and link, as long as that
      company holds no markdown link. */
  lemma ContinuationJob(prev: Job, row: RawRow, load: string -> Fragment)
    requires IsTrimmed(prev.company) && Unbolded(prev.company)
    requires MatchLink(prev.company).None?
    requires row.company == Continuation
    ensures Carry(RowParser(load)(Carry(prev), row)) == Carry(prev)
  {
    assert RowParser(load)(Carry(prev), row) == ParseRow(Carry(prev), row, load);
    ContinuationKeepsCompany(Carry(prev));
  }

  /** A document yields one record per table row between the start of the table and its
      end (`RecordLinesSound` places those rows, in increasing order). */
  lemma ParseFollowsTable(text: string, load: string -> Fragment)
    ensures var lines := Split(text, '\n');
      |Parse(text, load)| == |RecordLines(ClassifyAll(lines), TableStart(lines))|
  {
    var lines := Split(text, '\n');
  }

  /** Record `k` of a document is the row at line `RecordLines(..)[k]`, parsed in the context
      the record before it left. */
  lemma ParsedRecord(text: string, load: string -> Fragment, k: nat)
    requires k < |Parse(text, load)|
    ensures var lines := Split(text, '\n');
      var kinds := ClassifyAll(lines);
      var idx := RecordLines(kinds, TableStart(lines));
      k < |idx| && kinds[idx[k]] == Classify(lines[idx[k]]) &&
      Parse(text, load)[k] == ParseRow(ContextBefore(Parse(text, load), k, Init), kinds[idx[k]].row, load)
  {
    var lines := Split(text, '\n');
    var kinds := ClassifyAll(lines);
    var idx := RecordLines(kinds, TableStart(lines));
    RowAt(kinds, TableStart(lines), Init, RowParser(load), k);
    ClassifyAllAt(lines, idx[k]);
    RowParserParses(load, ContextBefore(Parse(text, load), k, Init), kinds[idx[k]].row);
  }

  /** Every record is clean: company trimmed and free of `**`, location normalised, and the
      flags set exactly when the lower-cased location mentions "remote" or "hybrid". */
  lemma RecordsAreClean(kinds: seq<LineKind>, i: nat, ctx: Context, load: string -> Fragment, k: int)
    requires 0 <= k < |Rows(kinds, i, ctx, RowParser(load))|
    ensures var job := Rows(kinds, i, ctx, RowParser(load))[k];
      IsTrimmed(job.company) && Unbolded(job.company) && IsNormalised(job.location) &&
      (job.isRemote <==> Contains(LowerString(job.location), "remote")) &&
      (job.isHybrid <==> Contains(LowerString(job.location), "hybrid"))
  {
    RowAt(kinds, i, ctx, RowParser(load), k);
  }

  /** A continuation row repeats the company and link of the record before it, unless that
      company still holds a markdown link after clean-up. */
  lemma ContinuationRowInherits(kinds: seq<LineKind>, i: nat, ctx: Context, load: string -> Fragment, k: int)
    requires 0 < k < |RecordLines(kinds, i)|
    requires kinds[RecordLines(kinds, i)[k]].row.company == Continuation
    requires MatchLink(Rows(kinds, i, ctx, RowParser(load))[k - 1].company).None?
    ensures Rows(kinds, i, ctx, RowParser(load))[k].company == Rows(kinds, i, ctx, RowParser(load))[k - 1].company
    ensures Rows(kinds, i, ctx, RowParser(load))[k].companyLink == Rows(kinds, i, ctx, RowParser(load))[k - 1].companyLink
  {
    var rows := Rows(kinds, i, ctx, RowParser(load));
    RecordsAreClean(kinds, i, ctx, load, k - 1);
    RowAfter(kinds, i, ctx, RowParser(load), k);
    ContinuationJob(rows[k - 1], kinds[RecordLines(kinds, i)[k]].row, load);
  }

  /** `parseRow` parses every row as `ParseRow` does with the loader `load`.  The loop is proved
      against a row parser known only through this predicate, which keeps the definition of
      `ParseRow` out of the loop's proof. */
  ghost predicate ParsesWith(parseRow: (Context, RawRow) -> Job, load: string -> Fragment) {
    forall ctx, row {:trigger ParseRow(ctx, row, load)} :: parseRow(ctx, row) == ParseRow(ctx, row, load)
  }

  /** The walk's row parser is such a parser. */
  lemma RowParserParsesWith(load: string -> Fragment)
    ensures ParsesWith(RowParser(load), load)
  {
  }

  /** The company statements of the loop body (parseReadme.js:37-46): inherit the carried
      company and link for `↳`, take text and url from the first markdown link, then drop
      every `**` and trim.  They compute exactly `ResolveCompany`. */
  method ResolveCompanyCell(lastValidCompany: string, lastValidCompanyLink: Option<string>,
                            companyRaw: string) returns (company: string, companyLink: Option<string>)
    ensures Context(company, companyLink) ==
      ResolveCompany(Context(lastValidCompany, lastValidCompanyLink), companyRaw)
  {
    company := if companyRaw == Continuation then lastValidCompany else companyRaw;
    companyLink := if companyRaw == Continuation then lastValidCompanyLink else None;
    var companyMatch := MatchLink(company);
    if companyMatch.Some? {
      company := companyMatch.value.text;
      companyLink := Some(companyMatch.value.url);
    }
    company := Trim(ReplaceAll(Bold, company));
  }

  /** The body of the loop at parseReadme.js:37-76 for one row with enough cells: resolve the
      company and its link against the values carried from the previous row, clean the
      location, look up the apply link, and build the record. */
  method ParseTableRow(lastValidCompany: string, lastValidCompanyLink: Option<string>,
                       companyRaw: string, role: string, locationRaw: string, applyRaw: string,
                       load: string -> Fragment, ghost parseRow: (Context, RawRow) -> Job) returns (job: Job)
    requires ParsesWith(parseRow, load)
    ensures job == parseRow(Context(lastValidCompany, lastValidCompanyLink),
                            RawRow(companyRaw, role, locationRaw, applyRaw))
  {
    var company, companyLink := ResolveCompanyCell(lastValidCompany, lastValidCompanyLink, companyRaw);
    var location := CleanHtml(locationRaw);
    var locationLower := LowerString(location);
    var isRemote := Includes(locationLower, "remote");
    var isHybrid := Includes(locationLower, "hybrid");
    var apply := ApplyHref(load(applyRaw));
    job := Job(company, role, location, apply, companyLink, isRemote, isHybrid);
    assert job == ParseRow(Context(lastValidCompany, lastValidCompanyLink),
                           RawRow(companyRaw, role, locationRaw, applyRaw), load);
  }

  /** The head of the loop at parseReadme.js:28-35 for one line: trim it, stop at a line that
      does not start with `|`, split it into trimmed cells, and skip it when it has fewer
      than five. */
  method ReadLine(rawLine: string) returns (kind: LineKind)
    ensures kind == Classify(rawLine)
    ensures kind.EndOfTable? <==> !StartsWithBar(Trim(rawLine))
    ensures kind.ShortRow? <==> StartsWithBar(Trim(rawLine)) && |Split(Trim(rawLine), '|')| < 5
  {
    var line := Trim(rawLine);
    if !StartsWithBar(line) {
      return EndOfTable;
    }
    var parts := Cells(line);
    if |parts| < 5 {
      return ShortRow;
    }
    var companyRaw, role, locationRaw, applyRaw := parts[1], parts[2], parts[3], parts[4];
    return TableRow(RawRow(companyRaw, role, locationRaw, applyRaw));
  }

  /** `ReadLine` on line `i` of the document gives that line's entry of `ClassifyAll`. */
  method ReadLineAt(lines: seq<string>, i: nat) returns (kind: LineKind)
    requires i < |lines|
    ensures kind == ClassifyAll(lines)[i]
  {
    kind := ReadLine(lines[i]);
    ClassifyAllAt(lines, i);
  }

  /** parseReadme.js:20-26: split the text into lines, find the header, and walk the table
      from two lines below it.  It collects exactly the records `Parse` describes. */
  method ParseReadme(text: string, load: string -> Fragment) returns (data: seq<Job>)
    ensures data == Parse(text, load)
  {
    var lines := Split(text, '\n');
    var tableStart := HeaderIndex(lines);
    RowParserParsesWith(load);
    data := CollectRecords(lines, tableStart + 2, load, RowParser(load));
  }

  /** The loop of parseReadme.js:27-86 from line `start` on: break at the end of the table,
      skip short rows, and append one record per row while carrying the last company and its
      link from row to row.  It collects exactly what the walk `Rows` describes. */
  method CollectRecords(lines: seq<string>, start: nat, load: string -> Fragment,
                        ghost parseRow: (Context, RawRow) -> Job) returns (data: seq<Job>)
    requires ParsesWith(parseRow, load)
    ensures data == Rows(ClassifyAll(lines), start, Init, parseRow)
  {
    ghost var kinds := ClassifyAll(lines);
    data := [];
    var lastValidCompany := "";
    var lastValidCompanyLink: Option<string> := Some("");
    var i: nat := start;
    ghost var total := Rows(kinds, i, Init, parseRow);
    while i < |lines|
      invariant data + Rows(kinds, i, Context(lastValidCompany, lastValidCompanyLink), parseRow) == total
      decreases |lines| - i
    {
      ghost var ctx := Context(lastValidCompany, lastValidCompanyLink);
      var kind := ReadLineAt(lines, i);
      match kind {
        case EndOfTable =>
          break;
        case ShortRow =>
          SkipShortRow(data, kinds, i, ctx, parseRow, total);
          i := i + 1;
        case TableRow(row) =>
          var job := ParseTableRow(lastValidCompany, lastValidCompanyLink,
                                   row.company, row.role, row.location, row.apply, load, parseRow);
          TakeTableRow(data, kinds, i, ctx, parseRow, job, total);
          lastValidCompany := job.company;
          lastValidCompanyLink := job.companyLink;
          data := data + [job];
          i := i + 1;
      }
    }
  }
}

=== FILE: rewrite.dfy ===
/** Global regular-expression replacement, `s.replace(/re/g, rep)`, for the five expressions
    the parser applies (parseReadme.js:8-11 and 46).  Each expression is given twice: as the
    set of windows it accepts (`Matches`) and as a scanner that measures the match at the
    front of a string (`MatchLen`); the scanner is proved to find the shortest accepted window,
    which is the one JavaScript's backtracking matcher picks for these expressions.
    `ReplaceAll` then walks the string left to right exactly as `replace` with the `g` flag:
    replace a match and continue after it, or keep one character and move on. */
module Rewrite {
  import opened Text

  datatype Pattern =
    | BreakTag     // /<\/?br\s*\/?>/gi
    | DetailsTag   // /<\/?details>/gi
    | SummarySpan  // /<\/?summary>.*?<\/summary>/gi
    | AnyTag       // /<.*?>/g
    | Bold         // /\*\*/g

  function Replacement(p: Pattern): string {
    if p == BreakTag then ", " else ""
  }

  /** `w` is a line-break tag: `<`, an optional `/`, `br` in either case, whitespace, an
      optional `/`, `>`. */
  predicate IsBreakTag(w: string) {
    |w| >= 4 && w[0] == '<' && w[|w| - 1] == '>' &&
    var a := if w[1] == '/' then 2 else 1;
    a + 2 <= |w| - 1 && Lower(w[a]) == 'b' && Lower(w[a + 1]) == 'r' &&
    forall i :: a + 2 <= i < |w| - 1 ==> IsSpace(w[i]) || (i == |w| - 2 && w[i] == '/')
  }

  /** Length of the `<summary>` or `</summary>` (any case) that opens `w`, or 0. */
  function SummaryOpener(w: string): nat {
    if OccursAtIgnoringCase(w, 0, "<summary>") then 9
    else if OccursAtIgnoringCase(w, 0, "</summary>") then 10
    else 0
  }

  /** The windows each expression accepts. */
  predicate Matches(p: Pattern, w: string) {
    match p
    case BreakTag => IsBreakTag(w)
    case DetailsTag =>
      (|w| == 9 && OccursAtIgnoringCase(w, 0, "<details>")) ||
      (|w| == 10 && OccursAtIgnoringCase(w, 0, "</details>"))
    case SummarySpan =>
      var o := SummaryOpener(w);
      o > 0 && o + 10 <= |w| && OccursAtIgnoringCase(w, |w| - 10, "</summary>") &&
      NoLineBreak(w, o, |w| - 10)
    case AnyTag =>
      |w| >= 2 && w[0] == '<' && w[|w| - 1] == '>' && NoLineBreak(w, 1, |w| - 1)
    case Bold => w == "**"
  }

  /** The lazy `.*?` followed by `lit`: the first index at or after `from` where `lit` occurs
      (ignoring case) with no line terminator before it, or nothing. */
  function FindOnLine(s: string, from: nat, lit: string): (r: Option<nat>)
    ensures r.Some? ==>
      from <= r.value && OccursAtIgnoringCase(s, r.value, lit) && NoLineBreak(s, from, r.value) &&
      forall j :: from <= j < r.value ==> !OccursAtIgnoringCase(s, j, lit)
    ensures r.None? ==>
      forall j :: from <= j && OccursAtIgnoringCase(s, j, lit) ==> !NoLineBreak(s, from, j)
    decreases |s| - from
  {
    if from + |lit| > |s| then None
    else if OccursAtIgnoringCase(s, from, lit) then Some(from)
    else if IsLineTerminator(s[from]) then None
    else FindOnLine(s, from + 1, lit)
  }

  function SkipSpaces(s: string, i: nat): (j: nat)
    requires i <= |s|
    ensures i <= j <= |s|
    ensures forall k :: i <= k < j ==> IsSpace(s[k])
    ensures j == |s| || !IsSpace(s[j])
    decreases |s| - i
  {
    if i < |s| && IsSpace(s[i]) then SkipSpaces(s, i + 1) else i
  }

  function BreakTagLength(s: string): nat {
    if |s| < 4 || s[0] != '<' then 0
    else
      var a := if s[1] == '/' then 2 else 1;
      if Lower(s[a]) != 'b' || Lower(s[a + 1]) != 'r' then 0
      else
        var j := SkipSpaces(s, a + 2);
        var k := if j < |s| && s[j] == '/' then j + 1 else j;
        if k < |s| && s[k] == '>' then k + 1 else 0
  }

  lemma BreakTagScan(s: string)
    ensures BreakTagLength(s) <= |s|
    ensures BreakTagLength(s) > 0 ==> IsBreakTag(s[..BreakTagLength(s)])
    ensures forall m :: 0 <= m <= |s| && IsBreakTag(s[..m]) ==> m == BreakTagLength(s)
  {
    var n := BreakTagLength(s);
    if n > 0 {
      var a := if s[1] == '/' then 2 else 1;
      var j := SkipSpaces(s, a + 2);
      var w := s[..n];
      assert w[1] == s[1] && w[a] == s[a] && w[a + 1] == s[a + 1];
      assert forall i :: a + 2 <= i < n - 1 ==> w[i] == s[i];
      assert forall i :: a + 2 <= i < n - 1 ==> IsSpace(w[i]) || (i == n - 2 && w[i] == '/');
    }
    forall m | 0 <= m <= |s| && IsBreakTag(s[..m]) ensures m == n {
      var w := s[..m];
      assert w[0] == s[0] && w[1] == s[1];
      var a := if s[1] == '/' then 2 else 1;
      assert w[a] == s[a] && w[a + 1] == s[a + 1];
      var j := SkipSpaces(s, a + 2);
      assert s[m - 1] == '>';
      if m - 2 >= a + 2 && s[m - 2] == '/' {
        assert forall i :: a + 2 <= i < m - 2 ==> IsSpace(s[i]) by {
          forall i | a + 2 <= i < m - 2 ensures IsSpace(s[i]) { assert w[i] == s[i]; }
        }
        assert j == m - 2;
      } else {
        assert forall i :: a + 2 <= i < m - 1 ==> IsSpace(s[i]) by {
          forall i | a + 2 <= i < m - 1 ensures IsSpace(s[i]) { assert w[i] == s[i]; }
        }
        assert j == m - 1;
      }
    }
  }

  function DetailsTagLength(s: string): nat {
    if OccursAtIgnoringCase(s, 0, "<details>") then 9
    else if OccursAtIgnoringCase(s, 0, "</details>") then 10
    else 0
  }

  lemma DetailsTagScan(s: string)
    ensures DetailsTagLength(s) <= |s|
    ensures DetailsTagLength(s) > 0 ==> Matches(DetailsTag, s[..DetailsTagLength(s)])
    ensures forall m :: 0 <= m <= |s| && Matches(DetailsTag, s[..m]) ==> m == DetailsTagLength(s)
  {
    forall m | 0 <= m <= |s| && Matches(DetailsTag, s[..m]) ensures m == DetailsTagLength(s) {
      var w := s[..m];
      assert forall i :: 0 <= i < m ==> w[i] == s[i];
      if m == 9 {
        assert OccursAtIgnoringCase(s, 0, "<details>");
      } else {
        assert OccursAtIgnoringCase(s, 0, "</details>");
        IgnoringCaseAt(s, 0, "</details>", 1);
        IgnoringCaseAt(w, 0, "</details>", 1);
        assert Lower(s[1]) == '/';
        assert !OccursAtIgnoringCase(s, 0, "<details>") by {
          assert Lower("<details>"[1]) == 'd';
        }
      }
    }
  }

  function SummarySpanLength(s: string): nat {
    var o := SummaryOpener(s);
    if o == 0 then 0
    else match FindOnLine(s, o, "</summary>")
      case Some(j) => j + 10
      case None => 0
  }

  lemma SummaryOpenerOfPrefix(s: string, m: nat)
    requires m <= |s|
    requires SummaryOpener(s[..m]) > 0 || (SummaryOpener(s) > 0 && SummaryOpener(s) <= m)
    ensures SummaryOpener(s[..m]) == SummaryOpener(s)
  {
    var w := s[..m];
    assert forall i :: 0 <= i < m ==> w[i] == s[i];
    if OccursAtIgnoringCase(s, 0, "</summary>") {
      IgnoringCaseAt(s, 0, "</summary>", 1);
      assert Lower(s[1]) == '/';
      assert !OccursAtIgnoringCase(s, 0, "<summary>") by {
        assert Lower("<summary>"[1]) == 's';
      }
    }
    if OccursAtIgnoringCase(w, 0, "</summary>") {
      IgnoringCaseAt(w, 0, "</summary>", 1);
      assert Lower(w[1]) == '/';
      assert !OccursAtIgnoringCase(w, 0, "<summary>") by {
        assert Lower("<summary>"[1]) == 's';
      }
    }
  }

  lemma SummarySpanFound(s: string)
    ensures SummarySpanLength(s) <= |s|
    ensures SummarySpanLength(s) > 0 ==> Matches(SummarySpan, s[..SummarySpanLength(s)])
  {
    var n := SummarySpanLength(s);
    if n > 0 {
      var w := s[..n];
      assert forall i :: 0 <= i < n ==> w[i] == s[i];
      SummaryOpenerOfPrefix(s, n);
      assert OccursAtIgnoringCase(w, n - 10, "</summary>");
    }
  }

  lemma SummarySpanShortest(s: string)
    ensures forall m :: 0 <= m <= |s| && Matches(SummarySpan, s[..m]) ==> 0 < SummarySpanLength(s) <= m
  {
    var n := SummarySpanLength(s);
    var o := SummaryOpener(s);
    forall m | 0 <= m <= |s| && Matches(SummarySpan, s[..m]) ensures 0 < n <= m {
      var w := s[..m];
      assert forall i :: 0 <= i < m ==> w[i] == s[i];
      SummaryOpenerOfPrefix(s, m);
      assert OccursAtIgnoringCase(s, m - 10, "</summary>");
      assert NoLineBreak(s, o, m - 10);
    }
  }

  lemma SummarySpanScan(s: string)
    ensures SummarySpanLength(s) <= |s|
    ensures SummarySpanLength(s) > 0 ==> Matches(SummarySpan, s[..SummarySpanLength(s)])
    ensures forall m :: 0 <= m <= |s| && Matches(SummarySpan, s[..m]) ==> 0 < SummarySpanLength(s) <= m
  {
    SummarySpanFound(s);
    SummarySpanShortest(s);
  }

  function AnyTagLength(s: string): nat {
    if s == [] || s[0] != '<' then 0
    else match FindOnLine(s, 1, ">")
      case Some(j) => j + 1
      case None => 0
  }

  lemma AnyTagScan(s: string)
    ensures AnyTagLength(s) <= |s|
    ensures AnyTagLength(s) > 0 ==> Matches(AnyTag, s[..AnyTagLength(s)])
    ensures forall m :: 0 <= m <= |s| && Matches(AnyTag, s[..m]) ==> 0 < AnyTagLength(s) <= m
  {
    var n := AnyTagLength(s);
    if n > 0 {
      var w := s[..n];
      assert forall i :: 0 <= i < n ==> w[i] == s[i];
      IgnoringCaseAt(s, n - 1, ">", 0);
      LowerOfNonLetter(s[n - 1], '>');
    }
    forall m | 0 <= m <= |s| && Matches(AnyTag, s[..m]) ensures 0 < n <= m {
      var w := s[..m];
      assert forall i :: 0 <= i < m ==> w[i] == s[i];
      LowerOfNonLetter(s[m - 1], '>');
      assert OccursAtIgnoringCase(s, m - 1, ">");
      assert NoLineBreak(s, 1, m - 1);
    }
  }

  function BoldLength(s: string): nat {
    if |s| >= 2 && s[0] == '*' && s[1] == '*' then 2 else 0
  }

  /** The length of the match of `p` at the front of `s`, 0 when there is none. */
  function MatchLen(p: Pattern, s: string): (n: nat)
    ensures n <= |s|
  {
    match p
    case BreakTag => BreakTagScan(s); BreakTagLength(s)
    case DetailsTag => DetailsTagScan(s); DetailsTagLength(s)
    case SummarySpan => SummarySpanScan(s); SummarySpanLength(s)
    case AnyTag => AnyTagScan(s); AnyTagLength(s)
    case Bold => BoldLength(s)
  }

  /** The match measured at the front of `s` is the shortest window `p` accepts there, and
      there is one whenever `p` accepts any. */
  lemma MatchLenCorrect(p: Pattern, s: string)
    ensures MatchLen(p, s) > 0 ==> Matches(p, s[..MatchLen(p, s)])
    ensures forall m :: 0 <= m <= |s| && Matches(p, s[..m]) ==> 0 < MatchLen(p, s) <= m
  {
    match p
    case BreakTag => BreakTagScan(s);
    case DetailsTag => DetailsTagScan(s);
    case SummarySpan => SummarySpanScan(s);
    case AnyTag => AnyTagScan(s);
    case Bold =>
      assert forall m :: 0 <= m <= |s| && s[..m] == "**" ==> m == 2 && s[0] == '*' && s[1] == '*';
  }

  /** `s.replace(/p/g, Replacement(p))`: scan left to right, and at each position either
      replace the match of `p` that starts there or copy one character. */
  function ReplaceAll(p: Pattern, s: string): string
    decreases |s|
  {
    if s == [] then []
    else
      var n := MatchLen(p, s);
      if n > 0 then Replacement(p) + ReplaceAll(p, s[n..])
      else [s[0]] + ReplaceAll(p, s[1..])
  }

  /** Every character of the result of a replacement comes from `s` or from the replacement
      text. */
  lemma {:induction false} ReplaceAllDrawsFrom(p: Pattern, s: string)
    ensures forall i :: 0 <= i < |ReplaceAll(p, s)| ==>
      ReplaceAll(p, s)[i] in s || ReplaceAll(p, s)[i] in Replacement(p)
    decreases |s|
  {
    if s != [] {
      var n := MatchLen(p, s);
      var r := ReplaceAll(p, s);
      if n > 0 {
        var rest := ReplaceAll(p, s[n..]);
        ReplaceAllDrawsFrom(p, s[n..]);
        assert r == Replacement(p) + rest;
        assert forall c :: c in s[n..] ==> c in s;
        forall i | 0 <= i < |r| ensures r[i] in s || r[i] in Replacement(p) {
          if i >= |Replacement(p)| {
            var c := rest[i - |Replacement(p)|];
            assert r[i] == c;
            assert c in s[n..] || c in Replacement(p);
          } else {
            assert r[i] == Replacement(p)[i];
          }
        }
      } else {
        var rest := ReplaceAll(p, s[1..]);
        ReplaceAllDrawsFrom(p, s[1..]);
        assert r == [s[0]] + rest;
        assert forall c :: c in s[1..] ==> c in s;
        forall i | 0 <= i < |r| ensures r[i] in s || r[i] in Replacement(p) {
          if i >= 1 {
            var c := rest[i - 1];
            assert r[i] == c;
            assert c in s[1..] || c in Replacement(p);
          } else {
            assert r[i] == s[0];
          }
        }
      }
    }
  }

  /** Where `p` accepts no window of `s`, replacing leaves `s` as it is. */
  lemma {:induction false} NothingToReplace(p: Pattern, s: string)
    requires forall i, j :: 0 <= i <= j <= |s| ==> !Matches(p, s[i..j])
    ensures ReplaceAll(p, s) == s
    decreases |s|
  {
    if s != [] {
      assert forall m :: 0 <= m <= |s| ==> s[0..m] == s[..m];
      MatchLenCorrect(p, s);
      assert MatchLen(p, s) == 0;
      var t := s[1..];
      assert forall i, j :: 0 <= i <= j <= |t| ==> t[i..j] == s[i + 1..j + 1];
      NothingToReplace(p, t);
      assert [s[0]] + t == s;
    }
  }

  /** An output that does not open with the replacement's first character copied the first
      character of the input. */
  lemma CopiedStep(p: Pattern, s: string)
    requires Replacement(p) != [] && s != []
    requires ReplaceAll(p, s) != [] && ReplaceAll(p, s)[0] != Replacement(p)[0]
    ensures ReplaceAll(p, s) == [s[0]] + ReplaceAll(p, s[1..])
  {
  }

  /** Until the first character of a non-empty replacement shows up in the output, the output
      is a copy of the input. */
  lemma {:induction false} CopiedPrefix(p: Pattern, s: string, k: nat)
    requires Replacement(p) != []
    requires k <= |ReplaceAll(p, s)|
    requires forall i :: 0 <= i < k ==> ReplaceAll(p, s)[i] != Replacement(p)[0]
    ensures k <= |s| && ReplaceAll(p, s)[..k] == s[..k]
    decreases |s|
  {
    if k > 0 {
      var o := ReplaceAll(p, s);
      assert s != [];
      CopiedStep(p, s);
      var o' := ReplaceAll(p, s[1..]);
      AvoidsAfterFirst(o, s[0], o', Replacement(p)[0], k);
      CopiedPrefix(p, s[1..], k - 1);
      PrefixAfterFirst(o, s, o', k);
    }
  }

  /** A character absent from the first `k` places of `[x] + o'` is absent from the first
      `k - 1` places of `o'`. */
  lemma AvoidsAfterFirst(o: string, x: char, o': string, c: char, k: nat)
    requires 0 < k <= |o| && o == [x] + o'
    requires forall i :: 0 <= i < k ==> o[i] != c
    ensures forall i :: 0 <= i < k - 1 ==> o'[i] != c
  {
    forall i | 0 <= i < k - 1 ensures o'[i] != c {
      assert o'[i] == o[i + 1];
    }
  }

  /** A shared first character and shared next `k - 1` characters make a shared prefix of
      length `k`. */
  lemma PrefixAfterFirst(o: string, s: string, o': string, k: nat)
    requires 0 < k <= |s| && k - 1 <= |o'| && o == [s[0]] + o'
    requires o'[..k - 1] == s[1..][..k - 1]
    ensures k <= |o| && o[..k] == s[..k]
  {
    forall i | 0 <= i < k ensures o[i] == s[i] {
      if i > 0 {
        assert o[i] == o'[..k - 1][i - 1] && s[i] == s[1..][..k - 1][i - 1];
      }
    }
  }

  /** Up to the first position where the expression matches, the output is a copy of the
      input: no replacement is made before the first match. */
  lemma {:induction false} CopiedUntilMatch(p: Pattern, s: string, m: nat)
    requires m <= |s|
    requires forall j :: 0 <= j < m ==> MatchLen(p, s[j..]) == 0
    ensures m <= |ReplaceAll(p, s)| && ReplaceAll(p, s)[..m] == s[..m]
    decreases m
  {
    if m > 0 {
      assert s[0..] == s;
      var t := s[1..];
      forall j | 0 <= j < m - 1 ensures MatchLen(p, t[j..]) == 0 {
        assert t[j..] == s[j + 1..];
      }
      CopiedUntilMatch(p, t, m - 1);
      assert ReplaceAll(p, s) == [s[0]] + ReplaceAll(p, t);
      PrefixAfterFirst(ReplaceAll(p, s), s, ReplaceAll(p, t), m);
    }
  }

  /** A line-break tag holds no comma. */
  lemma BreakTagHasNoComma(w: string)
    requires IsBreakTag(w)
    ensures forall i :: 0 <= i < |w| ==> w[i] != ','
  {
  }

  /** No line-break tag starts at the front of the output of the line-break pass: a tag there
      has no comma in it, so it was copied from the front of the input, where the pass would
      have replaced it. */
  lemma NoBreakTagAtFront(s: string, j: nat)
    requires j <= |ReplaceAll(BreakTag, s)|
    ensures !IsBreakTag(ReplaceAll(BreakTag, s)[..j])
  {
    var o := ReplaceAll(BreakTag, s);
    if IsBreakTag(o[..j]) {
      BreakTagHasNoComma(o[..j]);
      assert forall i :: 0 <= i < j ==> o[i] == o[..j][i];
      CopiedPrefix(BreakTag, s, j);
      MatchLenCorrect(BreakTag, s);
      assert false;
    }
  }

  predicate NoBreakTagIn(o: string) {
    forall i, j :: 0 <= i <= j <= |o| ==> !IsBreakTag(o[i..j])
  }

  lemma NoBreakTagInSuffix(o: string, d: nat)
    requires d <= |o| && NoBreakTagIn(o[d..])
    ensures forall i, j :: d <= i <= j <= |o| ==> !IsBreakTag(o[i..j])
  {
    forall i, j | d <= i <= j <= |o| ensures !IsBreakTag(o[i..j]) {
      assert o[i..j] == o[d..][i - d..j - d];
    }
  }

  /** After the line-break pass no line-break tag is left anywhere: the `, ` it inserts cannot
      complete a tag, so a tag in the output would already have been one in the input. */
  lemma {:induction false} NoBreakTagLeft(s: string)
    ensures NoBreakTagIn(ReplaceAll(BreakTag, s))
    decreases |s|
  {
    var o := ReplaceAll(BreakTag, s);
    if s != [] {
      var n := MatchLen(BreakTag, s);
      var d := if n > 0 then 2 else 1;
      var rest := if n > 0 then s[n..] else s[1..];
      NoBreakTagLeft(rest);
      assert o[d..] == ReplaceAll(BreakTag, rest);
      NoBreakTagInSuffix(o, d);
      forall i, j | 0 <= i <= j <= |o| ensures !IsBreakTag(o[i..j]) {
        if i == 0 {
          NoBreakTagAtFront(s, j);
          assert o[0..j] == o[..j];
        } else if i < d {
          assert o[i] == ' ';
        }
      }
    }
  }

  /** Every `>` of `t` has a line terminator somewhere before it. */
  predicate GtOnlyAfterLineBreak(t: string) {
    forall j :: 0 <= j < |t| && t[j] == '>' ==> !NoLineBreak(t, 0, j)
  }

  lemma {:induction false} TagPassKeepsGtAfterLineBreak(t: string)
    requires GtOnlyAfterLineBreak(t)
    ensures GtOnlyAfterLineBreak(ReplaceAll(AnyTag, t))
    decreases |t|
  {
    if t != [] {
      var o := ReplaceAll(AnyTag, t);
      assert t[0] != '>' by { assert NoLineBreak(t, 0, 0); }
      assert forall m :: 0 < m <= |t| ==> !Matches(AnyTag, t[..m]) by {
        forall m | 0 < m <= |t| ensures !Matches(AnyTag, t[..m]) {
          var w := t[..m];
          assert forall i :: 0 <= i < m ==> w[i] == t[i];
          if m >= 2 && t[m - 1] == '>' && t[0] == '<' {
            assert !NoLineBreak(t, 0, m - 1);
            assert !NoLineBreak(t, 1, m - 1);
            assert !NoLineBreak(w, 1, m - 1);
          }
        }
      }
      var t' := t[1..];
      var o' := ReplaceAll(AnyTag, t');
      MatchLenCorrect(AnyTag, t);
      assert t == [t[0]] + t';
      assert o == [t[0]] + o';
      if IsLineTerminator(t[0]) {
        forall j | 0 <= j < |o| && o[j] == '>' ensures !NoLineBreak(o, 0, j) {
          assert IsLineTerminator(o[0]);
        }
      } else {
        assert GtOnlyAfterLineBreak(t') by {
          forall j | 0 <= j < |t'| && t'[j] == '>' ensures !NoLineBreak(t', 0, j) {
            assert t[j + 1] == '>';
            assert !NoLineBreak(t, 0, j + 1);
            assert !NoLineBreak(t, 1, j + 1);
            NoLineBreakCons(t[0], t', 0, j);
          }
        }
        TagPassKeepsGtAfterLineBreak(t');
        forall j | 0 <= j < |o| && o[j] == '>' ensures !NoLineBreak(o, 0, j) {
          assert j > 0 && o'[j - 1] == '>';
          NoLineBreakCons(t[0], o', 0, j - 1);
        }
      }
    }
  }

  /** Where the catch-all tag pass keeps a `<`, every later `>` has a line terminator before
      it. */
  lemma UnmatchedOpen(s: string)
    requires s != [] && s[0] == '<' && MatchLen(AnyTag, s) == 0
    ensures GtOnlyAfterLineBreak(s[1..])
  {
    var t := s[1..];
    assert s == [s[0]] + t;
    MatchLenCorrect(AnyTag, s);
    forall j | 0 <= j < |t| && t[j] == '>' ensures !NoLineBreak(t, 0, j) {
      var w := s[..j + 2];
      assert forall i :: 0 <= i < j + 2 ==> w[i] == s[i];
      assert !Matches(AnyTag, w);
      assert !NoLineBreak(w, 1, j + 1);
      assert !NoLineBreak(s, 1, j + 1);
      NoLineBreakCons(s[0], t, 0, j);
    }
  }

  /** No `<` of `o` is followed by a `>` without a line terminator in between. */
  predicate NoTagOnOneLine(o: string) {
    forall i, j :: 0 <= i < j < |o| && o[i] == '<' && o[j] == '>' ==> !NoLineBreak(o, i, j)
  }

  lemma NoTagOnOneLineCons(c: char, o': string)
    requires NoTagOnOneLine(o')
    requires c == '<' ==> GtOnlyAfterLineBreak(o')
    ensures NoTagOnOneLine([c] + o')
  {
    var o := [c] + o';
    forall i, j | 0 <= i < j < |o| && o[i] == '<' && o[j] == '>' ensures !NoLineBreak(o, i, j) {
      assert o'[j - 1] == '>';
      if i > 0 {
        assert o'[i - 1] == '<';
        assert !NoLineBreak(o', i - 1, j - 1);
        NoLineBreakCons(c, o', i - 1, j - 1);
      } else {
        assert !NoLineBreak(o', 0, j - 1);
        NoLineBreakCons(c, o', 0, j - 1);
      }
    }
  }

  /** After the catch-all tag pass, a `<` that is left is never followed by a `>` on the same
      line: the lazy `<.*?>` would have removed the two and everything between them. */
  lemma {:induction false} NoTagLeftOnLine(s: string)
    ensures NoTagOnOneLine(ReplaceAll(AnyTag, s))
    decreases |s|
  {
    if s != [] {
      var n := MatchLen(AnyTag, s);
      if n > 0 {
        NoTagLeftOnLine(s[n..]);
        assert ReplaceAll(AnyTag, s) == ReplaceAll(AnyTag, s[n..]);
      } else {
        var t := s[1..];
        NoTagLeftOnLine(t);
        assert ReplaceAll(AnyTag, s) == [s[0]] + ReplaceAll(AnyTag, t);
        if s[0] == '<' {
          UnmatchedOpen(s);
          TagPassKeepsGtAfterLineBreak(t);
        }
        NoTagOnOneLineCons(s[0], ReplaceAll(AnyTag, t));
      }
    }
  }

  /** `s` with every `c` taken out. */
  function Without(c: char, s: string): string
    decreases |s|
  {
    if s == [] then [] else (if s[0] == c then [] else [s[0]]) + Without(c, s[1..])
  }

  /** Removing `**` takes out asterisks and nothing else. */
  lemma {:induction false} BoldRemovalKeepsOtherChars(s: string)
    ensures Without('*', ReplaceAll(Bold, s)) == Without('*', s)
    decreases |s|
  {
    if s != [] {
      if MatchLen(Bold, s) > 0 {
        assert |s| >= 2 && s[0] == '*' && s[1] == '*';
        assert ReplaceAll(Bold, s) == ReplaceAll(Bold, s[2..]);
        BoldRemovalKeepsOtherChars(s[2..]);
        assert s[1..][1..] == s[2..];
        assert Without('*', s) == Without('*', s[1..]) == Without('*', s[2..]);
      } else {
        BoldRemovalKeepsOtherChars(s[1..]);
        var o := ReplaceAll(Bold, s);
        assert o == [s[0]] + ReplaceAll(Bold, s[1..]);
        assert o[1..] == ReplaceAll(Bold, s[1..]);
      }
    }
  }

  /** Removing `**` from a text without asterisks followed by a closing `**` leaves the text. */
  lemma {:induction false} BoldSuffixRemoved(t: string)
    requires '*' !in t
    ensures ReplaceAll(Bold, t + "**") == t
    decreases |t|
  {
    var s := t + "**";
    if t == [] {
      assert s[2..] == [];
    } else {
      assert s[0] == t[0] && MatchLen(Bold, s) == 0;
      assert s[1..] == t[1..] + "**";
      BoldSuffixRemoved(t[1..]);
      assert t == [t[0]] + t[1..];
    }
  }

  /** Removing `**` from `**t**`, with no asterisk in `t`, leaves `t`. */
  lemma BoldAroundRemoved(t: string)
    requires '*' !in t
    ensures ReplaceAll(Bold, "**" + t + "**") == t
  {
    var s := "**" + t + "**";
    assert MatchLen(Bold, s) == 2;
    assert s[2..] == t + "**";
    BoldSuffixRemoved(t);
  }

  /** Removing `**` never joins two asterisks into a new `**`. */
  lemma {:induction false} NoBoldLeft(s: string)
    ensures forall i :: !OccursAt(ReplaceAll(Bold, s), i, "**")
    decreases |s|
  {
    var o := ReplaceAll(Bold, s);
    if s != [] {
      if MatchLen(Bold, s) > 0 {
        assert |s| >= 2 && s[0] == '*' && s[1] == '*';
        assert o == ReplaceAll(Bold, s[2..]);
        NoBoldLeft(s[2..]);
      } else {
        var o' := ReplaceAll(Bold, s[1..]);
        NoBoldLeft(s[1..]);
        assert o == [s[0]] + o';
        forall i ensures !OccursAt(o, i, "**") {
          if i > 0 {
            assert i + 2 <= |o| ==> o[i..i + 2] == o'[i - 1..i + 1];
            assert !OccursAt(o', i - 1, "**");
          } else if i == 0 && |o| >= 2 {
            assert o[0..2][0] == s[0] && o[0..2][1] == o'[0];
            if s[0] == '*' {
              assert s[1] != '*';
              assert MatchLen(Bold, s[1..]) == 0;
              assert o'[0] == s[1];
            }
          }
        }
      }
    }
  }
}

=== FILE: table.dfy ===
/** The walk over the table rows of parseReadme.js:27-86, independent of how one row is
    parsed: each line has been classified (end of table, short row, table row), and the
    walk stops at the first end-of-table line, skips short rows, and turns every table row
    into a record while carrying the last company and link forward.  The lemmas say which
    lines become records, in which order, and in which context each is parsed. */
module Table {
  import opened Text

  /** One parsed posting: `{ company, role, location, apply, companyLink, isRemote, isHybrid }`.
      `companyLink` is `None` where the source stores `null`. */
  datatype Job = Job(
    company: string,
    role: string,
    location: string,
    apply: string,
    companyLink: Option<string>,
    isRemote: bool,
    isHybrid: bool)

  /** The loop-carried `lastValidCompany` and `lastValidCompanyLink`. */
  datatype Context = Context(company: string, link: Option<string>)

  /** Both start out as the empty string. */
  const Init: Context := Context("", Some(""))

  function Carry(job: Job): Context {
    Context(job.company, job.companyLink)
  }

  /** The four cells of a row after `[_, companyRaw, role, locationRaw, applyRaw] = parts`. */
  datatype RawRow = RawRow(company: string, role: string, location: string, apply: string)

  /** What one iteration of the loop does with a line: break at a line that does not start
      with `|` once trimmed, skip one with fewer than five cells, parse the rest. */
  datatype LineKind = EndOfTable | ShortRow | TableRow(row: RawRow)

  /** The loop of parseReadme.js:27-86 from line `i` on, over the classified lines, with
      `ctx` carried from the rows before: one record per table row before the table ends. */
  function Rows(kinds: seq<LineKind>, i: nat, ctx: Context, parseRow: (Context, RawRow) -> Job): (jobs: seq<Job>)
    ensures |jobs| == |RecordLines(kinds, i)|
    decreases |kinds| - i
  {
    if i >= |kinds| then []
    else
      match kinds[i]
      case EndOfTable => []
      case ShortRow => Rows(kinds, i + 1, ctx, parseRow)
      case TableRow(row) =>
        var job := parseRow(ctx, row);
        [job] + Rows(kinds, i + 1, Carry(job), parseRow)
  }

  /** The first line at or after `i` that ends the table (or the end of the lines). */
  function TableEnd(kinds: seq<LineKind>, i: nat): (e: nat)
    ensures i <= e && (i <= |kinds| ==> e <= |kinds|)
    ensures forall j :: i <= j < e ==> j < |kinds| && !kinds[j].EndOfTable?
    ensures e < |kinds| ==> kinds[e].EndOfTable?
    decreases |kinds| - i
  {
    if i >= |kinds| || kinds[i].EndOfTable? then i else TableEnd(kinds, i + 1)
  }

  /** The indices of the table rows before the table ends. */
  function RecordLines(kinds: seq<LineKind>, i: nat): (r: seq<nat>)
    ensures forall k :: 0 <= k < |r| ==> r[k] < |kinds| && kinds[r[k]].TableRow?
    decreases |kinds| - i
  {
    if i >= |kinds| || kinds[i].EndOfTable? then []
    else
      var rest := RecordLines(kinds, i + 1);
      if kinds[i].TableRow? then [i] + rest else rest
  }

  /** `RecordLines` lists only table rows, all at or after `i` and before the end of the
      table, in increasing order. */
  lemma {:induction false} RecordLinesSound(kinds: seq<LineKind>, i: nat)
    ensures forall k :: 0 <= k < |RecordLines(kinds, i)| ==>
      i <= RecordLines(kinds, i)[k] < TableEnd(kinds, i)
    ensures forall a, b :: 0 <= a < b < |RecordLines(kinds, i)| ==>
      RecordLines(kinds, i)[a] < RecordLines(kinds, i)[b]
    decreases |kinds| - i
  {
    if i < |kinds| && !kinds[i].EndOfTable? {
      RecordLinesSound(kinds, i + 1);
      var rest := RecordLines(kinds, i + 1);
      var r := RecordLines(kinds, i);
      assert TableEnd(kinds, i) == TableEnd(kinds, i + 1);
      if kinds[i].TableRow? {
        assert r == [i] + rest;
        forall k | 0 <= k < |r| ensures i <= r[k] < TableEnd(kinds, i) {
          if k > 0 { assert r[k] == rest[k - 1]; }
        }
        forall a, b | 0 <= a < b < |r| ensures r[a] < r[b] {
          assert r[b] == rest[b - 1];
          if a > 0 { assert r[a] == rest[a - 1]; }
        }
      } else {
        assert r == rest;
      }
    }
  }

  /** Every table row between `i` and the end of the table is listed. */
  lemma {:induction false} RecordLinesComplete(kinds: seq<LineKind>, i: nat, j: int)
    requires i <= j < TableEnd(kinds, i) && kinds[j].TableRow?
    ensures j in RecordLines(kinds, i)
    decreases |kinds| - i
  {
    if j > i {
      RecordLinesComplete(kinds, i + 1, j);
    }
  }

  /** The context a record is parsed in: the starting context for the first, and the previous
      record's company and link for every later one. */
  function ContextBefore(jobs: seq<Job>, k: nat, ctx: Context): Context
    requires k <= |jobs|
  {
    if k == 0 then ctx else Carry(jobs[k - 1])
  }

  /** Record `k` is the `k`-th table row parsed in the context the record before it left. */
  lemma {:induction false} RowAt(kinds: seq<LineKind>, i: nat, ctx: Context, parseRow: (Context, RawRow) -> Job, k: nat)
    requires k < |Rows(kinds, i, ctx, parseRow)|
    ensures k < |RecordLines(kinds, i)|
    ensures Rows(kinds, i, ctx, parseRow)[k] ==
      parseRow(ContextBefore(Rows(kinds, i, ctx, parseRow), k, ctx), kinds[RecordLines(kinds, i)[k]].row)
    decreases |kinds| - i
  {
    var rows := Rows(kinds, i, ctx, parseRow);
    var idx := RecordLines(kinds, i);
    if kinds[i].ShortRow? {
      RowAt(kinds, i + 1, ctx, parseRow, k);
      assert rows == Rows(kinds, i + 1, ctx, parseRow);
      assert idx == RecordLines(kinds, i + 1);
    } else {
      var job := parseRow(ctx, kinds[i].row);
      var rest := Rows(kinds, i + 1, Carry(job), parseRow);
      assert rows == [job] + rest;
      assert idx == [i] + RecordLines(kinds, i + 1);
      if k > 0 {
        RowAt(kinds, i + 1, Carry(job), parseRow, k - 1);
        assert rows[k] == rest[k - 1];
        assert idx[k] == RecordLines(kinds, i + 1)[k - 1];
        assert ContextBefore(rest, k - 1, Carry(job)) == ContextBefore(rows, k, ctx);
      }
    }
  }

  /** Every record after the first is parsed with the company and link the record before it
      carried forward. */
  lemma RowAfter(kinds: seq<LineKind>, i: nat, ctx: Context, parseRow: (Context, RawRow) -> Job, k: nat)
    requires 0 < k < |RecordLines(kinds, i)|
    ensures Rows(kinds, i, ctx, parseRow)[k] ==
      parseRow(Carry(Rows(kinds, i, ctx, parseRow)[k - 1]), kinds[RecordLines(kinds, i)[k]].row)
  {
    RowAt(kinds, i, ctx, parseRow, k);
  }

  /** Skipping a line with too few cells keeps what is still to be collected. */
  lemma SkipShortRow(data: seq<Job>, kinds: seq<LineKind>, i: nat, ctx: Context,
                     parseRow: (Context, RawRow) -> Job, total: seq<Job>)
    requires i < |kinds| && kinds[i] == ShortRow
    requires data + Rows(kinds, i, ctx, parseRow) == total
    ensures data + Rows(kinds, i + 1, ctx, parseRow) == total
  {
  }

  /** Appending the record of a table row and carrying its company and link on keeps what is
      still to be collected. */
  lemma TakeTableRow(data: seq<Job>, kinds: seq<LineKind>, i: nat, ctx: Context,
                     parseRow: (Context, RawRow) -> Job, job: Job, total: seq<Job>)
    requires i < |kinds| && kinds[i].TableRow? && job == parseRow(ctx, kinds[i].row)
    requires data + Rows(kinds, i, ctx, parseRow) == total
    ensures (data + [job]) + Rows(kinds, i + 1, Carry(job), parseRow) == total
  {
    assert (data + [job]) + Rows(kinds, i + 1, Carry(job), parseRow) ==
      data + ([job] + Rows(kinds, i + 1, Carry(job), parseRow));
  }
}

=== FILE: text.dfy ===
/** Character classes and the few JavaScript string operations the parser relies on:
    `trim`, `split`, `includes`, `toLowerCase`.  Characters are treated as ASCII: whitespace
    is the six ASCII whitespace characters, the line terminators are `\n` and `\r`, and
    lower-casing maps `A`..`Z` only. */
module Text {

  datatype Option<T> = None | Some(value: T)

  /** A character matched by the regular-expression class `\s` and removed by `trim`. */
  predicate IsSpace(c: char) {
    c == ' ' || c == '\t' || c == '\n' || c == '\r' || c == '\U{0B}' || c == '\U{0C}'
  }

  /** A character the regular-expression `.` does not match. */
  predicate IsLineTerminator(c: char) {
    c == '\n' || c == '\r'
  }

  function Lower(c: char): char {
    if 'A' <= c <= 'Z' then (c as int + 32) as char else c
  }

  function LowerString(s: string): string {
    seq(|s|, i requires 0 <= i < |s| => Lower(s[i]))
  }

  /** `w` occurs in `s` starting at index `i`. */
  predicate OccursAt(s: string, i: int, w: string) {
    0 <= i && i + |w| <= |s| && s[i..i + |w|] == w
  }

  /** `w` occurs in `s` at index `i` when both are compared ASCII case-insensitively. */
  predicate OccursAtIgnoringCase(s: string, i: int, w: string) {
    0 <= i && i + |w| <= |s| && forall k :: 0 <= k < |w| ==> Lower(s[i + k]) == Lower(w[k])
  }

  ghost predicate Contains(s: string, w: string) {
    exists i :: OccursAt(s, i, w)
  }

  /** No line terminator among `s[a..b]`. */
  predicate NoLineBreak(s: string, a: int, b: int) {
    forall i :: a <= i < b && 0 <= i < |s| ==> !IsLineTerminator(s[i])
  }

  predicate AllSpace(s: string) {
    forall i :: 0 <= i < |s| ==> IsSpace(s[i])
  }

  /** Neither end of `s` is whitespace. */
  predicate IsTrimmed(s: string) {
    s == [] || (!IsSpace(s[0]) && !IsSpace(s[|s| - 1]))
  }

  /** JavaScript's `s.includes(w)`, scanning left to right. */
  function Includes(s: string, w: string): (b: bool)
    ensures b <==> Contains(s, w)
    decreases |s|
  {
    if |s| < |w| then
      false
    else if s[..|w|] == w then
      assert OccursAt(s, 0, w);
      true
    else
      var b := Includes(s[1..], w);
      assert forall i :: OccursAt(s[1..], i, w) ==> OccursAt(s, i + 1, w);
      assert forall i :: OccursAt(s, i, w) && i > 0 ==> OccursAt(s[1..], i - 1, w);
      b
  }

  function TrimStart(s: string): (r: string)
    ensures |r| <= |s| && r == s[|s| - |r|..]
    ensures AllSpace(s[..|s| - |r|])
    ensures r == [] || !IsSpace(r[0])
    decreases |s|
  {
    if s != [] && IsSpace(s[0]) then TrimStart(s[1..]) else s
  }

  function TrimEnd(s: string): (r: string)
    ensures |r| <= |s| && r == s[..|r|]
    ensures AllSpace(s[|r|..])
    ensures r == [] || !IsSpace(r[|r| - 1])
    decreases |s|
  {
    if s != [] && IsSpace(s[|s| - 1]) then TrimEnd(s[..|s| - 1]) else s
  }

  /** JavaScript's `s.trim()`: neither end of the result is whitespace. */
  function Trim(s: string): (r: string)
    ensures IsTrimmed(r)
  {
    TrimEnd(TrimStart(s))
  }

  /** `trim` removes whitespace only: its result is the slice of `s` between a run of
      whitespace at the front and one at the back. */
  lemma TrimIsSlice(s: string)
    ensures exists a :: OccursAt(s, a, Trim(s)) && AllSpace(s[..a]) && AllSpace(s[a + |Trim(s)|..])
  {
    var t := TrimStart(s);
    var r := TrimEnd(t);
    var a := |s| - |t|;
    assert t == s[a..];
    assert s[a..a + |r|] == r by { assert s[a..a + |r|] == t[..|r|]; }
    assert AllSpace(s[a + |r|..]) by { assert s[a + |r|..] == t[|r|..]; }
    assert OccursAt(s, a, r) && AllSpace(s[..a]);
  }

  lemma IgnoringCaseAt(s: string, i: int, w: string, k: int)
    requires OccursAtIgnoringCase(s, i, w) && 0 <= k < |w|
    ensures Lower(s[i + k]) == Lower(w[k])
  {
  }

  /** Lower-casing changes letters only. */
  lemma LowerOfNonLetter(c: char, d: char)
    requires !('a' <= d <= 'z') && !('A' <= d <= 'Z')
    ensures Lower(c) == d <==> c == d
  {
  }

  /** Searching the lower-cased text for a lower-case word is a case-insensitive search:
      `s.toLowerCase().includes(w)` holds exactly when `w` occurs in `s` in any letter case. */
  lemma LowerContains(s: string, w: string)
    requires LowerString(w) == w
    ensures Contains(LowerString(s), w) <==> exists i :: OccursAtIgnoringCase(s, i, w)
  {
    var l := LowerString(s);
    forall k | 0 <= k < |w| ensures Lower(w[k]) == w[k] {
      assert LowerString(w)[k] == Lower(w[k]);
    }
    forall i | OccursAtIgnoringCase(s, i, w) ensures OccursAt(l, i, w) {
      forall k | 0 <= k < |w| ensures l[i..i + |w|][k] == w[k] {
        assert l[i + k] == Lower(s[i + k]);
      }
      assert l[i..i + |w|] == w;
    }
    forall i | OccursAt(l, i, w) ensures OccursAtIgnoringCase(s, i, w) {
      forall k | 0 <= k < |w| ensures Lower(s[i + k]) == Lower(w[k]) {
        assert l[i..i + |w|][k] == w[k];
      }
    }
  }

  lemma NoLineBreakCons(c: char, t: string, a: int, b: int)
    requires 0 <= a
    ensures NoLineBreak([c] + t, a + 1, b + 1) <==> NoLineBreak(t, a, b)
  {
    var s := [c] + t;
    assert forall i :: 0 <= i < |t| ==> s[i + 1] == t[i];
    if NoLineBreak(t, a, b) {
      forall i | a + 1 <= i < b + 1 && 0 <= i < |s| ensures !IsLineTerminator(s[i]) {
        assert s[i] == t[i - 1];
      }
    }
  }

  lemma TrimOfTrimmed(s: string)
    requires IsTrimmed(s)
    ensures Trim(s) == s
  {
  }

  /** The pieces of `s` between occurrences of `sep`, glued back together with `sep`. */
  function Join(parts: seq<string>, sep: char): string
    requires |parts| >= 1
  {
    if |parts| == 1 then parts[0] else parts[0] + [sep] + Join(parts[1..], sep)
  }

  /** JavaScript's `s.split(sep)` for a one-character separator: the pieces of `s` between
      separators, always at least one. */
  function Split(s: string, sep: char): (parts: seq<string>)
    ensures |parts| >= 1
    decreases |s|
  {
    if s == [] then
      [""]
    else if s[0] == sep then
      [""] + Split(s[1..], sep)
    else
      var rest := Split(s[1..], sep);
      [[s[0]] + rest[0]] + rest[1..]
  }

  /** No piece of a split holds the separator. */
  lemma {:induction false} SplitPiecesHaveNoSeparator(s: string, sep: char)
    ensures forall k :: 0 <= k < |Split(s, sep)| ==> sep !in Split(s, sep)[k]
    decreases |s|
  {
    if s != [] {
      var rest := Split(s[1..], sep);
      SplitPiecesHaveNoSeparator(s[1..], sep);
      if s[0] != sep {
        var parts := Split(s, sep);
        assert parts == [[s[0]] + rest[0]] + rest[1..];
        assert forall k :: 1 <= k < |parts| ==> parts[k] == rest[k];
        assert sep !in [s[0]] + rest[0];
      }
    }
  }

  /** Gluing the pieces of a split back together with the separator gives the string back. */
  lemma {:induction false} SplitJoinsBack(s: string, sep: char)
    ensures Join(Split(s, sep), sep) == s
    decreases |s|
  {
    if s != [] {
      var rest := Split(s[1..], sep);
      SplitJoinsBack(s[1..], sep);
      if s[0] == sep {
        assert Split(s, sep) == [""] + rest;
        assert (["" ] + rest)[1..] == rest;
        assert [sep] + s[1..] == s;
      } else {
        var parts := [[s[0]] + rest[0]] + rest[1..];
        assert Split(s, sep) == parts;
        assert parts[1..] == rest[1..];
        if |rest| > 1 {
          assert Join(rest, sep) == rest[0] + [sep] + Join(rest[1..], sep);
        }
        assert Join(parts, sep) == [s[0]] + Join(rest, sep);
        assert [s[0]] + s[1..] == s;
      }
    }
  }

  /** Splitting a join of separator-free pieces gives the pieces back. */
  lemma {:induction false} SplitJoin(parts: seq<string>, sep: char)
    requires |parts| >= 1
    requires forall k :: 0 <= k < |parts| ==> sep !in parts[k]
    ensures Split(Join(parts, sep), sep) == parts
    decreases |Join(parts, sep)|
  {
    var p0 := parts[0];
    if p0 == [] {
      if |parts| > 1 {
        var rest := parts[1..];
        assert Join(parts, sep) == [sep] + Join(rest, sep);
        assert (forall k :: 0 <= k < |rest| ==> sep !in rest[k]) by {
          forall k | 0 <= k < |rest| ensures sep !in rest[k] { assert rest[k] == parts[k + 1]; }
        }
        SplitJoin(rest, sep);
        assert ([sep] + Join(rest, sep))[1..] == Join(rest, sep);
        assert parts == [""] + rest;
      }
    } else {
      var shorter := [p0[1..]] + parts[1..];
      assert shorter[1..] == parts[1..];
      assert Join(parts, sep) == [p0[0]] + Join(shorter, sep) by {
        if |parts| > 1 {
          assert Join(shorter, sep) == p0[1..] + [sep] + Join(parts[1..], sep);
        }
      }
      assert (forall k :: 0 <= k < |shorter| ==> sep !in shorter[k]) by {
        forall k | 0 <= k < |shorter| ensures sep !in shorter[k] {
          if k == 0 { assert forall c :: c in p0[1..] ==> c in p0; } else { assert shorter[k] == parts[k]; }
        }
      }
      SplitJoin(shorter, sep);
      assert p0[0] != sep by { assert p0[0] in p0; }
      assert ([p0[0]] + Join(shorter, sep))[1..] == Join(shorter, sep);
      assert [p0[0]] + p0[1..] == p0;
      assert [p0] + parts[1..] == parts;
    }
  }
}

=== FILE: watcher.dfy ===
/** The change detector of watchReadme.js:9-42: fetch the README, digest it, compare the
    digest with the one stored in the hash file, and run the parser only when they differ.
    The hash file is the single piece of state that survives from one run to the next.

    The network, the file system and the child process are not part of this model: a run is
    given the fetched text (or `None` when the fetch threw) and whether the parser process
    succeeded, and the MD5 hex digest is a function supplied when the watcher is built. */
module Watcher {
  import opened Text

  /** What one run did, as its console output reports it. */
  datatype Outcome =
    | FetchFailed                        // the outer `catch`: nothing else happened
    | Unchanged                          // digest equal to the stored one: parse skipped
    | Reparsed(parserSucceeded: bool)    // parser run (and possibly failed), hash written

  /** `lastHash`: the hash file's contents, or `''` when the file does not exist. */
  function LastHash(stored: Option<string>): string {
    if stored.Some? then stored.value else ""
  }

  /** One run, given the stored hash and the digest of the fetched text (`None` when the
      fetch failed): the new contents of the hash file and what the run did. */
  function Step(stored: Option<string>, current: Option<string>, parserSucceeds: bool): (Option<string>, Outcome) {
    match current
    case None => (stored, FetchFailed)
    case Some(h) =>
      if h != LastHash(stored) then (Some(h), Reparsed(parserSucceeds)) else (stored, Unchanged)
  }

  /** The parser runs exactly when the fetch succeeded and its digest differs from the stored
      hash (the missing file counting as `''`). */
  lemma ParsesIffChanged(stored: Option<string>, current: Option<string>, parserSucceeds: bool)
    ensures Step(stored, current, parserSucceeds).1.Reparsed? <==>
      current.Some? && current.value != LastHash(stored)
  {
  }

  /** After any run whose fetch succeeded, the hash file holds that run's digest, whether the
      parser ran or not and whether it succeeded or not: a failed parse is not retried on the
      same content. */
  lemma StoredHashFollowsContent(stored: Option<string>, h: string, parserSucceeds: bool)
    ensures LastHash(Step(stored, Some(h), parserSucceeds).0) == h
    ensures Step(stored, Some(h), parserSucceeds).1 != Unchanged ==>
      Step(stored, Some(h), parserSucceeds).0 == Some(h)
  {
  }

  /** A run that finds the digest unchanged writes nothing, and a run whose fetch fails
      changes nothing. */
  lemma QuietRunsKeepHashFile(stored: Option<string>, current: Option<string>, parserSucceeds: bool)
    ensures !Step(stored, current, parserSucceeds).1.Reparsed? ==>
      Step(stored, current, parserSucceeds).0 == stored
    ensures current.None? ==> Step(stored, current, parserSucceeds).1 == FetchFailed
  {
  }

  /** Running again on the same content skips the parse and leaves the hash file as it is,
      however the first run ended. */
  lemma RerunIsUnchanged(stored: Option<string>, h: string, first: bool, second: bool)
    ensures var after := Step(stored, Some(h), first).0;
      Step(after, Some(h), second) == (after, Unchanged)
  {
    StoredHashFollowsContent(stored, h, first);
  }

  /** Without a hash file, a non-empty digest (an MD5 hex digest has 32 characters) always
      makes the first run parse. */
  lemma FirstRunParses(h: string, parserSucceeds: bool)
    requires h != ""
    ensures Step(None, Some(h), parserSucceeds) == (Some(h), Reparsed(parserSucceeds))
  {
  }

  /** The watcher and its hash file. */
  class ReadmeWatcher {
    /** The hex digest of a text; for MD5 every digest has 32 characters. */
    const digest: string -> string
    /** The hash file: `None` when it does not exist. */
    var stored: Option<string>

    constructor(digest: string -> string, stored: Option<string>)
      ensures this.digest == digest && this.stored == stored
    {
      this.digest := digest;
      this.stored := stored;
    }

    /** One run of watchReadme.js on the fetched text (`None` when `fetch` or `res.text()`
        threw), with the parser process ending as `parserSucceeds` says.  The hash file
        changes exactly as `Step` says, and the run reparses exactly when the digest of the
        text differs from the stored hash. */
    method Run(fetched: Option<string>, parserSucceeds: bool) returns (outcome: Outcome)
      modifies this
      ensures (stored, outcome) ==
        Step(old(stored), if fetched.Some? then Some(digest(fetched.value)) else None, parserSucceeds)
      ensures outcome.Reparsed? <==> fetched.Some? && digest(fetched.value) != LastHash(old(stored))
    {
      if fetched.None? {
        return FetchFailed;
      }
      var content := fetched.value;
      var currentHash := digest(content);
      var lastHash := "";
      if stored.Some? {
        lastHash := stored.value;
      }
      if currentHash != lastHash {
        outcome := Reparsed(parserSucceeds);
        stored := Some(currentHash);
      } else {
        outcome := Unchanged;
      }
    }
  }
}
